=== FILE: README.md ===
# ts-to-surrealql compiler core in Dafny

This is a model of the back end of `ts-to-surrealql`. The front end reads
TypeScript declarations and produces entity records. Each record has a name,
optional `extends` clauses, and either a `members` object or a `type`
descriptor. The back end turns those records into a SurrealQL schema script.
The model covers these parts of that back end:

- **`genExpr`** (module `Expr`): the text that a modifier payload puts into a
  `VALUE` clause.
  - A string matching the unanchored regular expression `/\-?\d+n/` loses its
    last character.
  - Any other primitive is JSON-encoded.
  - `SQL_EXPR` yields its first argument unchanged.
  - `FUTURE` yields a fixed text.
  - Any other object yields `??`.
  - `null` throws.
- **`genFieldDef`** (module `FieldDef`):
  - First, at most one `WITH_DEFAULT`, then one `WITH_VALUE`, then one
    `FUTURE` wrapper are stripped, in that order. Each strip overwrites the
    pending VALUE text.
  - The rest is then dispatched on its `type` tag. The `__INTERNAL__TYPES__`
    scalars, `keyword`, `union` and `RECORD` give one `DEFINE FIELD` line.
  - Arrays, tuples and type literals give their own line, followed by the
    lines of their parts at `f.*`, `f[i]` and `f.<name>`.
  - Every other tag gives `""`.
  - Every `TypeError` the JavaScript can throw is kept as the `TypeError`
    result: reading `.type` of `null` or `undefined`, and `Object.keys` of a
    node without members.
- **`parseOutput`** (module `Entities`):
  - The falsy entries of `out[0]` are dropped. The rest are filed in an object
    under their names: a later entity replaces an earlier one of the same name
    in place, and keys keep their first-insertion order.
  - An empty output throws.
- **The script assembly** (module `Schema`):
  - There is one `DEFINE TABLE <k> SCHEMAFULL;` line per key, then a newline.
  - Then come the field definitions of all entities, joined with newlines.
  - An entity without `members` contributes the comment `/*<its JSON>*/`.

The JavaScript values are modelled generically (`Descriptor.Desc`). This keeps
`null`, a scalar where a node was expected, and an unknown tag exactly as
surprising as they are in the JavaScript. `WellFormed(d)` holds exactly when
`genFieldDef` does not throw on `d`.

The main results are:

- **The statement view.** `FieldDef.GenerateIsScript` shows that `genFieldDef`
  prints, newline-joined, an independent statement-level description
  `Statements(f, d)`. That description says:
  - the field's own definition comes first;
  - a container is followed by its parts, in order;
  - an unsupported descriptor gives one blank line.
- **When the compiler throws.** `Schema.CompileThrowsIff` states exactly when
  the whole compiler throws.
- **Fixture vectors.** The module `Vectors` restates the fields of the fixture
  `factory.mjs`, together with the lines they compile to. Each field vector
  is stated for any table and field name. Only the entity-level vectors
  (`Vectors.CollectSample`, `Vectors.SmallScript`) fix the names, because
  the entity names are their subject.

Module layout:

- `js.dfy`: `Option` and `Result` (the thrown `TypeError`).
- `strings.dfy`: numerals, `join` and `split`.
- `json.dfy`: JSON string escaping.
- `descriptor.dfy`: descriptors and `JSON.stringify`.
- `expr.dfy`, `fielddef.dfy` and `fielddef_props.dfy`: `genExpr`,
  `genFieldDef` and its properties.
- `entities.dfy`: the records and `parseOutput`.
- `schema.dfy`: the script.
- `vectors.dfy`: the fixture.

## Model

| member | source | states |
|---|---|---|
| Expr.Render | new.ts:25-41 | `genExpr` throws exactly on `null`. Only an `SQL_EXPR` node can yield something other than a string, and then it is that node's first argument. `undefined` comes out only for `undefined` or an `SQL_EXPR` node. |
| Expr.RegexTestIsBigIntSuffix | new.ts:26-30 | The unanchored test of `/\-?\d+n/` accepts a string exactly when a digit is immediately followed by `n` somewhere in it. |
| Expr.BigIntRendersAsNumeral | new.ts:26-30 | A big-integer literal `"<n>n"` renders as the bare numeral `<n>`, unquoted, for every integer `n`. |
| Expr.BigIntRendersAsNumber | new.ts:26-32 | For every safe integer `n` (magnitude at most 2^53 - 1), the literal `"<n>n"` renders as the same text as the number `n`. |
| Expr.BigIntSuffixAnywhere | new.ts:28-29 | Any string containing a digit followed by `n` loses its last character, even when that match is not at the end. |
| Expr.PlainStringQuoted | new.ts:32 | Any other string renders as a JSON string literal that decodes back to the original string. |
| Expr.SqlExprVerbatim | new.ts:33-35 | An `SQL_EXPR` payload contributes its first argument verbatim. |
| Expr.FutureIgnoresPayload | new.ts:36-38 | A `FUTURE` payload renders as the same fixed text, whatever its arguments. |
| Expr.OtherObjectsUnknown | new.ts:39-40 | Type literals and nodes with any other tag render as `??`. |
| Json.UnescapeEscape | new.ts:32 | JSON string escaping is inverted by unescaping, for every string. |
| Json.QuoteRoundTrip | new.ts:32 | A quoted JSON string unquotes back to its content and contains no raw newline. |
| Strings.IntRoundTrip | new.ts:83 | A tuple index converted to text is a sign-and-digits numeral that parses back to the same integer. |
| Strings.SplitJoin | new.ts:69-72 | Splitting a newline-joined list of newline-free lines gives back the list. |
| FieldDef.StripOne | new.ts:45-56 | Stripping one modifier never grows the descriptor. It fails on `null`. It changes the descriptor only when the descriptor carries that modifier's tag. |
| FieldDef.Strip | new.ts:44-56 | The three strips together never grow the descriptor and fail on `null`. |
| FieldDef.GenerateIsScript | new.ts:43-91 | `genFieldDef` throws exactly on ill-formed descriptors. On the others it returns the newline-joined text of the statement list. |
| FieldDef.DispatchIsScript | new.ts:58-90 | After stripping, the dispatch throws exactly on undispatchable descriptors. Otherwise it prints the stage's statement list. |
| FieldDef.LeafIsScript | new.ts:59-67 | Scalar, `keyword` and `RECORD` descriptors print their one statement. The `union` case at new.ts:86-88 is covered the same way. |
| FieldDef.ArrayIsScript | new.ts:68-73 | An array prints its own definition and then the element type's statements at `f.*`. It throws if the element type throws. |
| FieldDef.TupleIsScript | new.ts:80-85 | A tuple prints its own definition and then each element's statements at `f[i]`. |
| FieldDef.ObjectIsScript | new.ts:74-79 | A type literal prints its own definition and then each member's statements at `f.<name>`, in member order. |
| FieldDef.ElementsIsScript | new.ts:83 | The tuple elements' texts are each element's statement script, each preceded by a newline. The list throws exactly when one element is ill-formed. |
| FieldDef.MembersIsScript | new.ts:77 | The same as `ElementsIsScript`, for the members of a type literal. |
| FieldDefProperties.StatementPaths | new.ts:68-85 | Every definition after a field's own line defines a path strictly below the field's path. |
| FieldDefProperties.ElementPaths | new.ts:83 | The statements of the tuple elements all lie below the tuple's path. |
| FieldDefProperties.MemberPaths | new.ts:77 | The statements of the type-literal members all lie below the literal's path. |
| FieldDefProperties.StripUnwrapped | new.ts:44-56 | A descriptor that is not a modifier passes through stripping unchanged, with no VALUE text. |
| FieldDefProperties.SingleModifier | new.ts:45-56 | A single modifier around a plain type is compiled as that type, with the modifier's VALUE text. |
| FieldDefProperties.DispatchScalar | new.ts:58-64 | A scalar, `keyword` or `union` descriptor gives exactly one line. Its type is the mapped schema type or `any`. A truthy pending value follows as a ` VALUE ` clause. A falsy one is printed as it is right after the type name: nothing for the initial `''`, but `undefined`, `null`, `false` or `0` otherwise. |
| FieldDefProperties.EmptyIffUnhandled | new.ts:58-90 | `genFieldDef` returns `""` exactly when stripping succeeds and the remaining descriptor matches none of the handled tags. |
| FieldDefProperties.AssertEmitsNothing | new.ts:89-90 | An `ASSERT` field compiles to nothing. |
| FieldDefProperties.StripOutOfOrder | new.ts:45-56 | A modifier wrapped in one that is stripped no later only has the outer one stripped. The inner one is left for the dispatch. |
| FieldDefProperties.OutOfOrderModifiers | new.ts:45-56 | As a result, out-of-order nesting compiles to `""`. |
| FieldDefProperties.OuterModifierDiscarded | new.ts:45-56 | When an earlier modifier wraps a later one, the outer payload is overwritten. The result is what the inner modifier alone gives. |
| FieldDefProperties.EmptyValueDropped | new.ts:49-58 | A `WITH_VALUE` whose payload renders as the empty string leaves `valueStr` empty. The field then compiles as its inner type. |
| FieldDefProperties.FalsyValuePrintedRaw | new.ts:49-64 | A `WITH_VALUE` over a scalar, `keyword` or `union` whose payload is missing or renders as another falsy value gets no `VALUE` prefix. The value's text is glued to the type name instead. |
| Vectors.MissingValuePayload | new.ts:49-60 | `WITH_VALUE<INT>` without a payload gives `TYPE intundefined;`. |
| Vectors.ZeroValuePayload | new.ts:49-60 | `WITH_VALUE<INT, SQL_EXPR<0>>` gives `TYPE int0;`. |
| FieldDefProperties.ModifierOnOwnLineOnly | new.ts:68-72 | A modifier around an array puts its VALUE clause only on the array's own line. The element lines are those of the element type alone. |
| FieldDefProperties.FutureTwoRenderings | new.ts:36-55 | A top-level `FUTURE` renders any non-null payload after `<future> `, as a VALUE clause even when the payload is falsy. A `FUTURE` nested as a `WITH_VALUE` payload renders the fixed text. |
| FieldDefProperties.LeafLine | new.ts:59-64 | A scalar, `keyword` or `union` field with no modifier gives one line with the mapped type and no VALUE clause. |
| FieldDefProperties.ScalarTypes | new.ts:18-23 | These are the schema types of `STRING`, `INT`, `BOOL` and `DECIMAL`, and `any` for `keyword` and `union`. |
| FieldDefProperties.RecordTarget | new.ts:65-67 | A `RECORD` with no first argument, or with a `null` one, throws. A node target prints `record(<tag>)`. A type-literal target prints `record(typeLiteral)`. A primitive target prints `record(undefined)`. |
| FieldDefProperties.ArrayLayout | new.ts:68-73 | An `array` or `Array` gives its own line, followed by the element type's statements at `f.*`. Any further type arguments are ignored. |
| FieldDefProperties.TuplePair | new.ts:80-85 | A pair tuple gives its own line, then the first element at `f[0]`, then the second at `f[1]`. |
| FieldDefProperties.ObjectOrder | new.ts:74-79 | A two-member type literal gives its own line, then the members' statements in member order. |
| FieldDefProperties.EmptyPartLeavesBlankLine | new.ts:68-90 | An array whose element compiles to the empty string, such as an `ASSERT` or an unsupported type, leaves an empty line after the array's definition. |
| Entities.Insert | new.ts:129 | Assigning `ret[name]` keeps the object valid and stores the entity. Existing keys keep their order, and the key sequence only grows. |
| Entities.Collect | new.ts:124-130 | The object built from the truthy entries has distinct keys. Its keys are exactly the names of those entries. |
| Entities.ParseOutput | new.ts:123-132 | `parseOutput` throws exactly on an empty output. Otherwise it returns a valid object keyed by the names in `out[0]`. |
| Entities.LastWins | new.ts:127-130 | The entity stored under a name is the last entity carrying that name. |
| Entities.KeysInFirstOrder | new.ts:126-130 | Keys come in the order of their names' first appearance. |
| Entities.EntityJson | new.ts:99 | The JSON of an entity has no raw newline, so its comment takes exactly one line. |
| Schema.FieldTextsThrowIff | new.ts:109-112 | An entity's fields throw exactly when one field descriptor is ill-formed. |
| Schema.FieldTextsAreScripts | new.ts:109-112 | Otherwise each field's text is the script of its statement list. |
| Schema.BodyThrowsIff | new.ts:94-113 | The field definitions throw exactly when the entity under some key has an ill-formed field. |
| Schema.SchemaThrowsIff | new.ts:93-118 | The schema text throws exactly when some stored entity has an ill-formed field. |
| Schema.TableDefLines | new.ts:93 | The table part splits into one `DEFINE TABLE` line per key, in key order. Nothing else comes before the field definitions. |
| Schema.SplitJoinRest | new.ts:93 | A newline-joined list followed by a newline splits back into the list, followed by whatever comes after. |
| Schema.EntityContribution | new.ts:95-112 | An entity without `members` contributes one one-line comment. An empty `members` contributes nothing. Otherwise there is one text per member. |
| Schema.ExtendsIgnored | new.ts:102-105 | Changing the `extends` clauses of an entity with members leaves the script unchanged. |
| Schema.BodyUnchanged | new.ts:94-113 | Entities that contribute the same texts give the same field definitions. |
| Schema.LastOccurrence | new.ts:127-130 | Every stored name has a last occurrence, which is the entity `parseOutput` keeps. |
| Schema.CompileThrowsIff | new.ts:93-132 | The compiler throws exactly when the output is empty, or when a kept entity has an ill-formed field. |
| Vectors.DefaultLine | new.ts:45-60 | `WITH_DEFAULT<T, p>` over a scalar or `keyword` gives one line with the VALUE text `$value OR <rendered p>`. |
| Vectors.DefaultBool | factory.mjs:108-121 | `WITH_DEFAULT<BOOL, true>` gives `TYPE bool VALUE $value OR true`. |
| Vectors.DefaultNumber | factory.mjs:122-135 | `WITH_DEFAULT<INT, 42>` gives `TYPE int VALUE $value OR 42`. |
| Vectors.DefaultBigInt | factory.mjs:144-157 | `WITH_DEFAULT<INT, 42n>` gives the same line as `42`. |
| Vectors.DefaultString | factory.mjs:158-171 | `WITH_DEFAULT<STRING, 'abbb'>` gives the quoted default `"abbb"`. |
| Vectors.DefaultSqlExpr | factory.mjs:172-190 | The `SQL_EXPR` default `'"abbb"'` gives the same line as the string default. |
| Vectors.DefaultObject | factory.mjs:275-293 | A `{}` default on `any` gives `TYPE any VALUE $value OR ??`. |
| Vectors.FutureLine | new.ts:53-60 | `FUTURE<T, p>` over a scalar gives one line with the VALUE text `<future> <rendered p>`. |
| Vectors.FutureField | factory.mjs:199-217 | The `age2` field, for any table and field name, gives `TYPE int VALUE <future> time::now() - birthdate`. |
| Vectors.FutureSql | factory.mjs:199-217 | A `FUTURE` of an `SQL_EXPR` puts that expression after `<future> `, whatever the table and field. |
| Vectors.FutureEmptySql | new.ts:53-60 | `FUTURE<INT, SQL_EXPR<''>>` still gets ` VALUE <future> `, because the prefix makes the pending value truthy. |
| Vectors.ValueOfFuture | factory.mjs:218-245 | The `age` field, a `FUTURE` nested in `WITH_VALUE`, for any table and field name, gets the literal template text as its VALUE. |
| Vectors.AssertField | factory.mjs:256-274 | The `email2` field, an `ASSERT`, for any table and field name compiles to `""`. |
| Vectors.RecordField | factory.mjs:304-316 | The `bff` field, for any table and field name, gives `TYPE record(Person)`. |
| Vectors.UnionField | factory.mjs:23-61 | The nullable object `adress` is a `union` and gives a single `TYPE any` line. Its alternatives are not visited. |
| Vectors.TupleField | factory.mjs:343-359 | `[STRING, STRING]` gives an `array` line and then string lines at `f[0]` and `f[1]`. |
| Vectors.ArrayOfObjects | factory.mjs:62-99 | The array of addresses `prev_adress` gives lines at `f`, `f.*`, `f.*.street`, `f.*.plz` and `f.*.ort`, in that order. |
| Vectors.CollectSample | factory.mjs:3-398 | Three entities named as in the fixture, with a `null` inserted after the first, are filed under `Person`, `Friends` and `Couple` in that order. `Person` is cut down to two fields. |
| Vectors.CollectThree | new.ts:124-130 | Three differently named entities with a falsy entry between them are filed under their names, in order. |
| Vectors.SmallScript | factory.mjs:3-398 | A cut-down fixture compiles to three table lines, then the `email` line, an empty line for the `ASSERT` field, and the comment for the `Couple` alias. `Friends` contributes nothing. |

## Left out

- `generateFactoryCode` and the TypeScript front end (new.ts:134 onwards) are
  not part of this model. Their output is the input here: a list of entity
  records, taken as a parameter.
- Reading `def.ts` and `factory2.json`, writing `factory.mjs`, `factory2.json`,
  `diff.json` and `out.surql`, and `console.log` are I/O. The script is
  returned as a value instead.
- The `rfc6902` patch between the old and new `parseOutput` results is a
  foreign library and is not modelled.
- Object keys are kept in insertion order. JavaScript puts integer-like keys
  such as `"1"` first, and this is not modelled. An entity named `__proto__`,
  and keys inherited from `Object.prototype` (which `type.type in
  __INTERNAL__TYPES__` would match, e.g. `toString`), are also not modelled.
- Numbers are integers. Fractional numbers, exponent notation, `-0` and
  `NaN` are not modelled in `JSON.stringify` or `String`. Lone UTF-16
  surrogates in `JSON.stringify` are not modelled either.
- `parseOutput` stores every truthy entry as an entity. Truthy non-record
  entries, such as a number, cannot occur in the modelled input type.
- Expr.Render: a number is printed exactly at any size. In the source a
  numeric payload is a double (`parseFloat`, new.ts:488-490), so beyond
  `Number.MAX_SAFE_INTEGER` (2^53 - 1) it is rounded and printed with the
  rounded digits: `36028797018963968` prints as `36028797018963970`.
- Expr.BigIntRendersAsNumber: holds only for safe integers, because of that
  rounding. The big-integer string itself is printed exactly at any size,
  which `Expr.BigIntRendersAsNumeral` states.
- Expr.Render: strings are sequences of Unicode scalar values, not UTF-16 code
  units. So for a big-integer string ending in a character outside the Basic
  Multilingual Plane, the model drops the whole character. The source's
  `slice` drops only its low surrogate, and a lone surrogate cannot be
  represented here.
- Expr.BigIntSuffixAnywhere: states the same code-point slice, with the same
  limitation for a last character outside the Basic Multilingual Plane.
- Expr.Render: the `SQL_EXPR` branch returns `typeArgs[0]` whatever it is.
  When that is an object, the later `String(...)` conversion is modelled only
  as `[object Object]`.
- Behaviour kept as new.ts has it, though it may be unintended:
  - An `ASSERT` field produces no line, only the empty string that the field
    list joins. base.d.ts:15 declares `ASSERT<T, S extends string>` with a
    condition `S`, but new.ts:43-90 has no `ASSERT` branch.
  - Of two nested modifiers, the value of the one stripped last wins: each of
    new.ts:45-56 assigns `valueStr` outright.
  - The big-integer test at new.ts:28 is unanchored, so `"a1nb"` also loses
    its last character.
  - A type alias such as `Couple` becomes a JSON comment (new.ts:97-100), and
    an interface with no members, such as `Friends`, contributes nothing
    (new.ts:109-112 over an empty object).
  - The `FUTURE` branch of `genExpr` returns its template text uninterpolated:
    new.ts:37 writes `genExpr(...)` inside the template without `${}`.
  - A falsy value is not dropped. It only loses its ` VALUE ` prefix
    (new.ts:58-60). So a missing `WITH_VALUE` payload prints
    `TYPE intundefined;`.

=== FILE: descriptor.dfy ===
/**
 The type descriptors the front-end hands to the compiler, as the generic JSON
 values they are: scalars, tagged nodes `{ type: <tag>, typeArgs: [...] }`, and
 type literals `{ type: "typeLiteral", members: { <name>: <field>, ... } }`.
 Keeping the representation generic lets an unknown tag, a scalar where a node
 was expected, or a `null` flow through the compiler exactly as they do in the
 JavaScript.
 */
module Descriptor {
  import opened Js
  import opened Strings
  import Json

  datatype Desc =
    | JNull
    | JBool(b: bool)
    | JInt(n: int)
    | JStr(s: string)
    | Node(tag: string, args: seq<Desc>)
    | TypeLit(members: seq<Field>)

  /** `Number.MAX_SAFE_INTEGER`, 2^53 - 1: up to this magnitude a JavaScript
      number holds an integer exactly and prints it digit for digit. */
  const MaxSafeInteger: int := 0x1F_FFFF_FFFF_FFFF

  /** One member of a type literal or of an entity: `{ name, question, type }`.
      A members object is modelled as the sequence of its values in key order,
      and each value's `name` is its key. */
  datatype Field = Field(name: string, question: bool, ty: Desc)

  /** A JavaScript value the compiler can hold: a descriptor, or `undefined`
      (what reading a missing array element or missing property yields). */
  datatype JsValue = Undefined | Defined(d: Desc)

  function Str(s: string): JsValue {
    Defined(JStr(s))
  }

  /** `args[i]`, which is `undefined` past the end of the array. */
  function Arg(args: seq<Desc>, i: nat): (v: JsValue)
    ensures v.Defined? <==> i < |args|
  {
    if i < |args| then Defined(args[i]) else Undefined
  }

  /** Reading `d.type`: throws on `null`, is `undefined` on a primitive. */
  function TypeOf(d: Desc): (r: Result<JsValue>)
    ensures r.TypeError? <==> d == JNull
    ensures r.Ok? && r.value.Defined? ==> r.value.d.JStr? && (d.Node? || d.TypeLit?)
  {
    match d
    case JNull => TypeError
    case Node(tag, _) => Ok(Str(tag))
    case TypeLit(_) => Ok(Str("typeLiteral"))
    case _ => Ok(Undefined)
  }

  /** `String(v)`, the conversion applied by `+` and by template literals. */
  function ToText(v: JsValue): string {
    match v
    case Undefined => "undefined"
    case Defined(JNull) => "null"
    case Defined(JBool(b)) => if b then "true" else "false"
    case Defined(JInt(n)) => IntToString(n)
    case Defined(JStr(s)) => s
    case Defined(_) => "[object Object]"
  }

  /** JavaScript truthiness: `undefined`, `null`, `false`, `0` and `""` are falsy. */
  predicate Truthy(v: JsValue) {
    match v
    case Undefined => false
    case Defined(JNull) => false
    case Defined(JBool(b)) => b
    case Defined(JInt(n)) => n != 0
    case Defined(JStr(s)) => s != ""
    case Defined(_) => true
  }

  /** Number of descriptor nodes, the measure the recursive compiler descends on. */
  function Size(d: Desc): (n: nat)
    ensures n >= 1
  {
    match d
    case Node(_, args) => 1 + SizeAll(args)
    case TypeLit(ms) => 1 + SizeMembers(ms)
    case _ => 1
  }

  function SizeAll(ds: seq<Desc>): (n: nat)
    ensures forall i :: 0 <= i < |ds| ==> Size(ds[i]) <= n
    ensures ds != [] ==> n == Size(ds[0]) + SizeAll(ds[1..])
  {
    if ds == [] then 0 else Size(ds[0]) + SizeAll(ds[1..])
  }

  function SizeMembers(ms: seq<Field>): (n: nat)
    ensures forall i :: 0 <= i < |ms| ==> Size(ms[i].ty) <= n
    ensures ms != [] ==> n == Size(ms[0].ty) + SizeMembers(ms[1..])
  {
    if ms == [] then 0 else Size(ms[0].ty) + SizeMembers(ms[1..])
  }

  /** `JSON.stringify(d)` with the property order the front-end writes. */
  function DescJson(d: Desc): (j: string)
    ensures '\n' !in j
  {
    match d
    case JNull => "null"
    case JBool(b) => if b then "true" else "false"
    case JInt(n) => NumberJson(n)
    case JStr(s) => QuoteJson(s)
    case Node(tag, args) => "{\"type\":" + QuoteJson(tag) + ",\"typeArgs\":" + ListJson(args) + "}"
    case TypeLit(ms) => "{\"type\":\"typeLiteral\",\"members\":{" + MembersJson(ms) + "}}"
  }

  function NumberJson(n: int): (j: string)
    ensures '\n' !in j
  {
    IntRoundTrip(n);
    IntToString(n)
  }

  function QuoteJson(s: string): (j: string)
    ensures '\n' !in j
  {
    Json.QuoteRoundTrip(s);
    Json.Quote(s)
  }

  /** A JSON array of descriptors. */
  function ListJson(ds: seq<Desc>): (j: string)
    ensures '\n' !in j
    decreases ds, 1
  {
    "[" + ItemsJson(ds) + "]"
  }

  function ItemsJson(ds: seq<Desc>): (j: string)
    ensures '\n' !in j
    decreases ds, 0
  {
    if ds == [] then ""
    else if |ds| == 1 then DescJson(ds[0])
    else DescJson(ds[0]) + "," + ItemsJson(ds[1..])
  }

  /** The `key: { name, question, type }` pairs of a members object. */
  function MembersJson(ms: seq<Field>): (j: string)
    ensures '\n' !in j
  {
    if ms == [] then ""
    else
      var m := ms[0];
      var entry := QuoteJson(m.name) + ":{\"name\":" + QuoteJson(m.name)
        + ",\"question\":" + (if m.question then "true" else "false")
        + ",\"type\":" + DescJson(m.ty) + "}";
      if |ms| == 1 then entry else entry + "," + MembersJson(ms[1..])
  }
}

=== FILE: entities.dfy ===
/**
 The front-end's output and `parseOutput`: the first element of the output is a
 list of entity records (with `null` where a declaration produced nothing);
 `parseOutput` drops the falsy ones and files the rest in an object under their
 names. Object keys keep the order in which they were first set, and setting
 an existing key replaces its value in place.
 */
module Entities {
  import opened Js
  import opened Strings
  import opened Descriptor

  /** One declaration: `{ name, extends?, members?, type? }`, with `extends`
      held in `bases`. `members` is present for interfaces and classes, `type`
      for type aliases. */
  datatype Entity = Entity(
    name: string,
    bases: Option<seq<seq<Desc>>>,
    members: Option<seq<Field>>,
    alias: Option<Desc>)

  /** `JSON.stringify(entity)`, keys in the order the front-end writes them. */
  function EntityJson(e: Entity): (j: string)
    ensures '\n' !in j
  {
    "{\"name\":" + QuoteJson(e.name)
    + (match e.bases case None => "" case Some(x) => ",\"extends\":" + ClausesJson(x))
    + (match e.members case None => "" case Some(ms) => ",\"members\":{" + MembersJson(ms) + "}")
    + (match e.alias case None => "" case Some(d) => ",\"type\":" + DescJson(d))
    + "}"
  }

  /** The `extends` clauses: a JSON array of arrays of descriptors. */
  function ClausesJson(xs: seq<seq<Desc>>): (j: string)
    ensures '\n' !in j
  {
    "[" + ClauseItemsJson(xs) + "]"
  }

  function ClauseItemsJson(xs: seq<seq<Desc>>): (j: string)
    ensures '\n' !in j
  {
    if xs == [] then ""
    else if |xs| == 1 then ListJson(xs[0])
    else ListJson(xs[0]) + "," + ClauseItemsJson(xs[1..])
  }

  // ---------------------------------------------------------------------------
  // The object parseOutput builds

  /** A JavaScript object keyed by entity name: its keys in insertion order
      and the value stored under each. */
  datatype Table = Table(keys: seq<string>, entries: map<string, Entity>)

  /** What every object satisfies: each key once, and exactly the stored keys. */
  ghost predicate Valid(tb: Table) {
    (forall i, j :: 0 <= i < j < |tb.keys| ==> tb.keys[i] != tb.keys[j])
    && (forall k :: k in tb.keys <==> k in tb.entries)
  }

  /** `ret[e.name] = e`: a new key goes last, an existing one keeps its place. */
  function Insert(tb: Table, e: Entity): (r: Table)
    ensures Valid(tb) ==> Valid(r)
    ensures r.entries == tb.entries[e.name := e]
    ensures |r.keys| >= |tb.keys| && r.keys[..|tb.keys|] == tb.keys
  {
    if e.name in tb.entries then Table(tb.keys, tb.entries[e.name := e])
    else Table(tb.keys + [e.name], tb.entries[e.name := e])
  }

  /** `xs[n]` is an entity named `k`. */
  predicate NamedAt(xs: seq<Option<Entity>>, n: int, k: string) {
    0 <= n < |xs| && xs[n].Some? && xs[n].value.name == k
  }

  /** The names of the (truthy) entities in `xs`. */
  ghost function Names(xs: seq<Option<Entity>>): set<string> {
    set n | 0 <= n < |xs| && xs[n].Some? :: xs[n].value.name
  }

  /** `realOut.forEach(mem => ret[mem.name] = mem)` over the truthy entries,
      `None` standing for a falsy one. */
  function Collect(xs: seq<Option<Entity>>): (tb: Table)
    ensures Valid(tb)
    ensures tb.entries.Keys == Names(xs)
  {
    if xs == [] then Table([], map[])
    else
      var pre := xs[..|xs| - 1];
      var tb := Collect(pre);
      assert forall n | 0 <= n < |pre| :: pre[n] == xs[n];
      match xs[|xs| - 1]
      case None =>
        assert Names(xs) == Names(pre);
        tb
      case Some(e) =>
        assert Names(xs) == Names(pre) + {e.name};
        Insert(tb, e)
  }

  /** `parseOutput(out)`: `out[0]` is read, so an empty output throws. */
  function ParseOutput(out: seq<seq<Option<Entity>>>): (r: Result<Table>)
    ensures r.TypeError? <==> out == []
    ensures r.Ok? ==> Valid(r.value) && r.value.entries.Keys == Names(out[0])
  {
    if out == [] then TypeError else Ok(Collect(out[0]))
  }

  // ---------------------------------------------------------------------------
  // Which entity a name ends up with, and in which order the names come

  /** Later entities with the same name overwrite earlier ones: the value
      stored under a name is the last entity carrying it. */
  lemma {:induction false} LastWins(xs: seq<Option<Entity>>, k: string, n: nat)
    requires NamedAt(xs, n, k)
    requires forall m :: n < m < |xs| ==> !NamedAt(xs, m, k)
    ensures k in Collect(xs).entries && Collect(xs).entries[k] == xs[n].value
    decreases |xs|
  {
    var pre := xs[..|xs| - 1];
    if n < |xs| - 1 {
      assert !NamedAt(xs, |xs| - 1, k);
      assert pre[n] == xs[n];
      forall m | n < m < |pre| ensures !NamedAt(pre, m, k) {
        assert !NamedAt(xs, m, k);
      }
      LastWins(pre, k, n);
    }
  }

  /** `n` is the first position of an entity named `k`. */
  predicate FirstAt(xs: seq<Option<Entity>>, k: string, n: int) {
    NamedAt(xs, n, k) && forall m :: 0 <= m < n ==> !NamedAt(xs, m, k)
  }

  lemma FirstAtPrefix(xs: seq<Option<Entity>>, k: string, n: int, m: nat)
    requires m < |xs| && NamedAt(xs, m, k) && FirstAt(xs, k, n)
    ensures (n <= m && FirstAt(xs[..|xs| - 1], k, n)) || n == m == |xs| - 1
  {
    var pre := xs[..|xs| - 1];
    if n < |xs| - 1 {
      forall j | 0 <= j < n ensures !NamedAt(pre, j, k) {
        assert !NamedAt(xs, j, k);
      }
    }
  }

  /** Keys come in the order their names first appear: replacing an entity
      does not move its key. */
  lemma {:induction false} KeysInFirstOrder(xs: seq<Option<Entity>>, i: nat, j: nat, p: int, q: int)
    requires i < j < |Collect(xs).keys|
    requires FirstAt(xs, Collect(xs).keys[i], p) && FirstAt(xs, Collect(xs).keys[j], q)
    ensures p < q
    decreases |xs|
  {
    var pre := xs[..|xs| - 1];
    var tb := Collect(pre);
    var keys := Collect(xs).keys;
    assert forall n | 0 <= n < |pre| :: pre[n] == xs[n];
    var ki, kj := keys[i], keys[j];
    if j < |tb.keys| {
      // Both names were already there: their first positions lie in `pre`.
      assert keys[..|tb.keys|] == tb.keys by {
        if xs[|xs| - 1].Some? { } else { }
      }
      assert tb.keys[i] == ki && tb.keys[j] == kj;
      assert ki in Names(pre) && kj in Names(pre);
      var mi :| 0 <= mi < |pre| && pre[mi].Some? && pre[mi].value.name == ki;
      var mj :| 0 <= mj < |pre| && pre[mj].Some? && pre[mj].value.name == kj;
      FirstAtPrefix(xs, ki, p, mi);
      FirstAtPrefix(xs, kj, q, mj);
      KeysInFirstOrder(pre, i, j, p, q);
    } else {
      // `kj` is the name the last entity added.
      assert xs[|xs| - 1].Some? && kj == xs[|xs| - 1].value.name && kj !in tb.entries;
      assert kj !in Names(pre);
      assert q == |xs| - 1;
      assert i < |tb.keys|;
      assert keys[i] == tb.keys[i];
      assert ki in Names(pre);
      var mi :| 0 <= mi < |pre| && pre[mi].Some? && pre[mi].value.name == ki;
      assert NamedAt(xs, mi, ki);
    }
  }
}

=== FILE: expr.dfy ===
/**
 `genExpr`: the text a modifier payload contributes to a VALUE clause. A string
 that looks like a big-integer literal loses its last character, any other
 primitive is JSON-encoded, an `SQL_EXPR` node yields its first argument as is,
 a `FUTURE` node yields a fixed text, and every other object yields `??`.
 */
module Expr {
  import opened Js
  import opened Strings
  import opened Descriptor
  import Json

  /** The template literal in the `FUTURE` branch, which has no `${}` and so
      is emitted as written, whatever the payload. */
  const FutureText := "<future> genExpr(type.typeArgs[1])"

  // The regular expression /\-?\d+n/ and what its unanchored `test` accepts.

  ghost predicate AllDigits(w: string) {
    |w| >= 1 && forall k :: 0 <= k < |w| ==> IsDigit(w[k])
  }

  /** `w` matches `\-?\d+` as a whole. */
  ghost predicate SignedDigits(w: string) {
    AllDigits(w) || (|w| >= 2 && w[0] == '-' && AllDigits(w[1..]))
  }

  /** `s[i..j]` matches `\-?\d+n` as a whole. */
  ghost predicate MatchesAt(s: string, i: int, j: int) {
    0 <= i && i + 2 <= j <= |s| && s[j - 1] == 'n' && SignedDigits(s[i..j - 1])
  }

  /** `/\-?\d+n/.test(s)`: some substring of `s` matches. */
  ghost predicate RegexTest(s: string) {
    exists i, j :: MatchesAt(s, i, j)
  }

  /** The executable form of the test: somewhere a digit is directly followed by `n`. */
  predicate HasBigIntSuffix(s: string)
    decreases |s|
  {
    |s| >= 2 && ((IsDigit(s[0]) && s[1] == 'n') || HasBigIntSuffix(s[1..]))
  }

  lemma {:induction false} HasBigIntSuffixAt(s: string)
    ensures HasBigIntSuffix(s) <==> exists k :: 0 <= k && k + 1 < |s| && IsDigit(s[k]) && s[k + 1] == 'n'
    decreases |s|
  {
    if |s| >= 2 {
      HasBigIntSuffixAt(s[1..]);
      if HasBigIntSuffix(s[1..]) {
        var k :| 0 <= k && k + 1 < |s[1..]| && IsDigit(s[1..][k]) && s[1..][k + 1] == 'n';
        assert IsDigit(s[k + 1]) && s[k + 2] == 'n';
      }
      if k :| 0 <= k && k + 1 < |s| && IsDigit(s[k]) && s[k + 1] == 'n' {
        if k > 0 {
          assert IsDigit(s[1..][k - 1]) && s[1..][k] == 'n';
        }
      }
    }
  }

  /** The unanchored regular expression accepts exactly the strings in which a
      digit is immediately followed by `n`: the optional sign and the leading
      digits never matter. */
  lemma RegexTestIsBigIntSuffix(s: string)
    ensures RegexTest(s) <==> HasBigIntSuffix(s)
  {
    HasBigIntSuffixAt(s);
    if RegexTest(s) {
      var i, j :| MatchesAt(s, i, j);
      var w := s[i..j - 1];
      assert IsDigit(w[|w| - 1]);
      assert IsDigit(s[j - 2]) && s[j - 1] == 'n';
    }
    if HasBigIntSuffix(s) {
      var k :| 0 <= k && k + 1 < |s| && IsDigit(s[k]) && s[k + 1] == 'n';
      assert s[k..k + 1] == [s[k]];
      assert MatchesAt(s, k, k + 2);
    }
  }

  /** `genExpr(v)`: the payload's text, or the `TypeError` thrown by reading
      `.type` of `null`. The result is a JavaScript value, since the `SQL_EXPR`
      branch hands back its argument untouched and `JSON.stringify(undefined)`
      is `undefined`. */
  function Render(v: JsValue): (r: Result<JsValue>)
    ensures r.TypeError? <==> v == Defined(JNull)
    ensures r.Ok? && r.value.Defined? && !r.value.d.JStr? ==>
      v.Defined? && v.d.Node? && v.d.tag == "SQL_EXPR" && r.value == Arg(v.d.args, 0)
    ensures r.Ok? && r.value.Undefined? ==> v.Undefined? || (v.d.Node? && v.d.tag == "SQL_EXPR")
  {
    match v
    case Undefined => Ok(Undefined)
    case Defined(JStr(s)) =>
      if HasBigIntSuffix(s) then Ok(Str(s[..|s| - 1])) else Ok(Str(Json.Quote(s)))
    case Defined(JBool(b)) => Ok(Str(if b then "true" else "false"))
    case Defined(JInt(n)) => Ok(Str(IntToString(n)))
    case Defined(JNull) => TypeError
    case Defined(Node(tag, args)) =>
      if tag == "SQL_EXPR" then Ok(Arg(args, 0))
      else if tag == "FUTURE" then Ok(Str(FutureText))
      else Ok(Str("??"))
    case Defined(TypeLit(_)) => Ok(Str("??"))
  }

  /** A big-integer literal `"<n>n"` renders as the bare numeral, unquoted,
      whatever its size: `"42n"` gives `42`. */
  lemma BigIntRendersAsNumeral(n: int)
    ensures Render(Str(IntToString(n) + "n")) == Ok(Str(IntToString(n)))
  {
    var s := IntToString(n) + "n";
    IntToStringEndsInDigit(n);
    HasBigIntSuffixAt(s);
    assert IsDigit(s[|s| - 2]) && s[|s| - 1] == 'n';
    assert s[..|s| - 1] == IntToString(n);
  }

  /** For a safe integer `n`, the literal `"<n>n"` renders exactly as the
      number `n` itself does. Beyond `MaxSafeInteger` the source's number is
      rounded and this no longer holds of it. */
  lemma BigIntRendersAsNumber(n: int)
    requires -MaxSafeInteger <= n <= MaxSafeInteger
    ensures Render(Str(IntToString(n) + "n")) == Render(Defined(JInt(n)))
  {
    BigIntRendersAsNumeral(n);
  }

  /** Because the pattern is unanchored, any string with a digit directly
      before an `n` is cut by one character and left unquoted, even when it is
      not a number: `"room 1n a"` gives `room 1n `. */
  lemma BigIntSuffixAnywhere(s: string, k: nat)
    requires k + 1 < |s| && IsDigit(s[k]) && s[k + 1] == 'n'
    ensures Render(Str(s)) == Ok(Str(s[..|s| - 1]))
  {
    HasBigIntSuffixAt(s);
  }

  /** Every other string comes back as a JSON string literal that parses back
      to the original, `"abbb"` giving `"abbb"` with its quotes. */
  lemma PlainStringQuoted(s: string)
    requires !HasBigIntSuffix(s)
    ensures Render(Str(s)).Ok? && Render(Str(s)).value.Defined?
    ensures var q := Render(Str(s)).value.d;
      q.JStr? && Json.Unquote(q.s) == Some(s) && q.s[0] == '"'
  {
    Json.QuoteRoundTrip(s);
  }

  /** An `SQL_EXPR` node's first argument is emitted verbatim, unquoted. */
  lemma SqlExprVerbatim(e: string, rest: seq<Desc>)
    ensures Render(Defined(Node("SQL_EXPR", [JStr(e)] + rest))) == Ok(Str(e))
  {
  }

  /** A `FUTURE` node renders as the same fixed text whatever its arguments. */
  lemma FutureIgnoresPayload(a: seq<Desc>, b: seq<Desc>)
    ensures Render(Defined(Node("FUTURE", a))) == Render(Defined(Node("FUTURE", b)))
    ensures Render(Defined(Node("FUTURE", a))) == Ok(Str(FutureText))
  {
  }

  /** Any object other than an `SQL_EXPR` or `FUTURE` node, an empty type
      literal included, renders as `??`. */
  lemma OtherObjectsUnknown(d: Desc)
    requires d.TypeLit? || (d.Node? && d.tag != "SQL_EXPR" && d.tag != "FUTURE")
    ensures Render(Defined(d)) == Ok(Str("??"))
  {
  }
}

=== FILE: fielddef.dfy ===
/**
 `genFieldDef(t, field, type)`: the `DEFINE FIELD` statements for one field of
 table `t`, as one newline-joined string.

 The descriptor is first stripped of a `WITH_DEFAULT`, then a `WITH_VALUE`,
 then a `FUTURE` wrapper (each at most once, in that order), each strip
 overwriting the pending VALUE text. The remaining descriptor is dispatched on
 its `type` tag: scalar tags give one line, containers give their own line
 followed by the lines of their parts, and every other tag gives `""`.
 */
module FieldDef {
  import opened Js
  import opened Strings
  import opened Descriptor
  import opened Expr

  /** `__INTERNAL__TYPES__`: the scalar tags and their schema type names. */
  const InternalTypes: map<string, string> :=
    map["STRING" := "string", "INT" := "int", "BOOL" := "bool", "DECIMAL" := "decimal"]

  // ---------------------------------------------------------------------------
  // Modifier stripping

  /** The three wrappers that turn into a VALUE clause, in stripping order. */
  datatype Modifier = WithDefault | WithValue | Future

  function ModifierTag(m: Modifier): string {
    match m
    case WithDefault => "WITH_DEFAULT"
    case WithValue => "WITH_VALUE"
    case Future => "FUTURE"
  }

  /** Position of a modifier in the fixed stripping order. */
  function Rank(m: Modifier): nat {
    match m
    case WithDefault => 0
    case WithValue => 1
    case Future => 2
  }

  /** The new `valueStr` once modifier `m`, whose payload rendered as `e`, is stripped. */
  function Assign(m: Modifier, e: JsValue): JsValue {
    match m
    case WithDefault => Str("$value OR " + ToText(e))
    case WithValue => e
    case Future => Str("<future> " + ToText(e))
  }

  /** The pending `valueStr` and the descriptor still to be dispatched. */
  datatype Stage = Stage(value: JsValue, ty: Desc)

  /** One `if(type.type === <tag>) { valueStr = ...; type = type.typeArgs[0] }`.
      With no `typeArgs[0]` the descriptor becomes `undefined` and the next
      read of `.type` throws, which is reported here. */
  function StripOne(m: Modifier, st: Stage): (r: Result<Stage>)
    ensures r.Ok? ==> Size(r.value.ty) <= Size(st.ty)
    ensures st.ty == JNull ==> r.TypeError?
    ensures r.Ok? && r.value.ty != st.ty ==> st.ty.Node? && st.ty.tag == ModifierTag(m)
  {
    match st.ty
    case JNull => TypeError
    case Node(tag, args) =>
      if tag == ModifierTag(m) then
        var e :- Render(Arg(args, 1));
        if |args| == 0 then TypeError else Ok(Stage(Assign(m, e), args[0]))
      else Ok(st)
    case _ => Ok(st)
  }

  /** The three strips in their fixed order, starting from `valueStr = ''`. */
  function Strip(d: Desc): (r: Result<Stage>)
    ensures r.Ok? ==> Size(r.value.ty) <= Size(d)
    ensures d == JNull ==> r.TypeError?
  {
    var s1 :- StripOne(WithDefault, Stage(Str(""), d));
    var s2 :- StripOne(WithValue, s1);
    StripOne(Future, s2)
  }

  /** A VALUE clause. */
  function Clause(x: string): string {
    " VALUE " + x
  }

  /** What `${valueStr}` prints once `if(valueStr) valueStr = " VALUE " + valueStr`
      has run: the VALUE clause of a truthy pending value, and otherwise the
      falsy value itself as `String` renders it, which is `""` only for the
      initial empty string (`undefined`, `null`, `false` and `0` print as
      such). */
  function Suffix(v: JsValue): string {
    if Truthy(v) then Clause(ToText(v)) else ToText(v)
  }

  /** `DEFINE FIELD <f> ON TABLE <t> TYPE <ty><suffix>;` */
  function Line(t: string, f: string, ty: string, suffix: string): string {
    "DEFINE FIELD " + f + " ON TABLE " + t + " TYPE " + ty + suffix + ";"
  }

  // ---------------------------------------------------------------------------
  // genFieldDef

  /** `genFieldDef(t, f, d)`, or the `TypeError` it throws. */
  function Generate(t: string, f: string, d: Desc): Result<string>
    decreases Size(d), 2
  {
    var st :- Strip(d);
    Dispatch(t, f, st)
  }

  /** The `if(type.type ...)` chain after stripping, applied to what remains. */
  function Dispatch(t: string, f: string, st: Stage): Result<string>
    decreases Size(st.ty), 1
  {
    var v := Suffix(st.value);
    match st.ty
    case JNull => TypeError
    case Node(k, args) =>
      if k in InternalTypes then Ok(Line(t, f, InternalTypes[k], v))
      else if k == "keyword" then Ok(Line(t, f, "any", v))
      else if k == "RECORD" then
        if |args| == 0 then TypeError
        else
          var target :- TypeOf(args[0]);
          Ok(Line(t, f, "record(" + ToText(target) + ")", v))
      else if k == "array" || k == "Array" then
        if |args| == 0 then TypeError
        else
          var element :- Generate(t, f + ".*", args[0]);
          Ok(Line(t, f, "array", v) + "\n" + element)
      else if k == "typeLiteral" then TypeError // a node without `members`: Object.keys(undefined)
      else if k == "tuple" then
        var elements :- Elements(t, f, args, 0);
        Ok(Line(t, f, "array", v) + elements)
      else if k == "union" then Ok(Line(t, f, "any", v))
      else Ok("")
    case TypeLit(ms) =>
      var members :- Members(t, f, ms);
      Ok(Line(t, f, "object", v) + members)
    case _ => Ok("")
  }

  /** `"\n" + genFieldDef(t, f[i], elems[i])` for each tuple element, `i`
      counting from `start`. */
  function Elements(t: string, f: string, elems: seq<Desc>, start: nat): Result<string>
    decreases SizeAll(elems), 3
  {
    if elems == [] then Ok("")
    else
      var first :- Generate(t, f + "[" + IntToString(start) + "]", elems[0]);
      var rest :- Elements(t, f, elems[1..], start + 1);
      Ok("\n" + first + rest)
  }

  /** `"\n" + genFieldDef(t, f.<name>, type)` for each type-literal member in order. */
  function Members(t: string, f: string, ms: seq<Field>): Result<string>
    decreases SizeMembers(ms), 3
  {
    if ms == [] then Ok("")
    else
      var first :- Generate(t, f + "." + ms[0].name, ms[0].ty);
      var rest :- Members(t, f, ms[1..]);
      Ok("\n" + first + rest)
  }

  // ---------------------------------------------------------------------------
  // When genFieldDef throws

  /** The descriptors `genFieldDef` compiles without throwing: no `null` is
      read, a stripped modifier has an inner type and a non-null payload, and
      what remains after stripping is dispatchable. */
  predicate WellFormed(d: Desc)
    decreases Size(d), 2
  {
    Strip(d).Ok? && Dispatchable(Strip(d).value.ty)
  }

  /** The remaining descriptor is not `null`, a `RECORD` has a non-null first
      argument, an array has a well-formed element type, a tagged
      `typeLiteral` carries members, and the parts of tuples and type literals
      are well formed. */
  predicate Dispatchable(x: Desc)
    decreases Size(x), 1
  {
    match x
    case JNull => false
    case Node(k, args) =>
      if k == "RECORD" then |args| > 0 && args[0] != JNull
      else if k == "array" || k == "Array" then |args| > 0 && WellFormed(args[0])
      else if k == "typeLiteral" then false
      else if k == "tuple" then forall i | 0 <= i < |args| :: WellFormed(args[i])
      else true
    case TypeLit(ms) => forall i | 0 <= i < |ms| :: WellFormed(ms[i].ty)
    case _ => true
  }

  // ---------------------------------------------------------------------------
  // The statements a field compiles to

  /** One line of a field's output: a field definition, or the empty line an
      unsupported descriptor leaves. */
  datatype Stmt = DefineField(path: string, ddlType: string, suffix: string) | Blank

  function StmtText(t: string, s: Stmt): string {
    match s
    case DefineField(p, ty, v) => Line(t, p, ty, v)
    case Blank => ""
  }

  function Texts(t: string, ss: seq<Stmt>): (r: seq<string>)
    ensures |r| == |ss|
  {
    if ss == [] then [] else [StmtText(t, ss[0])] + Texts(t, ss[1..])
  }

  /** The statements of table `t`, one per line. */
  function Script(t: string, ss: seq<Stmt>): string {
    Join(Texts(t, ss), "\n")
  }

  /** Statements following an earlier line: each preceded by a newline. */
  function Tail(t: string, ss: seq<Stmt>): string {
    if ss == [] then "" else "\n" + Script(t, ss)
  }

  /** The schema type a dispatched descriptor is declared with. */
  function DdlType(x: Desc): Option<string> {
    match x
    case Node(k, args) =>
      if k in InternalTypes then Some(InternalTypes[k])
      else if k == "keyword" || k == "union" then Some("any")
      else if k == "RECORD" && |args| > 0 && args[0] != JNull then Some("record(" + ToText(TypeOf(args[0]).value) + ")")
      else if k == "array" || k == "Array" || k == "tuple" then Some("array")
      else None
    case TypeLit(_) => Some("object")
    case _ => None
  }

  /** The statement sequence a well-formed field compiles to. */
  function Statements(f: string, d: Desc): (ss: seq<Stmt>)
    requires WellFormed(d)
    ensures |ss| >= 1
    decreases Size(d), 2
  {
    StageStatements(f, Strip(d).value)
  }

  /** The field's own definition, followed for containers by the statements of
      its parts at `f.*`, `f[i]` or `f.<name>`; a single blank line for an
      unsupported descriptor. */
  function StageStatements(f: string, st: Stage): (ss: seq<Stmt>)
    requires Dispatchable(st.ty)
    ensures |ss| >= 1
    decreases Size(st.ty), 1
  {
    match DdlType(st.ty)
    case None => [Blank]
    case Some(ty) =>
      var own := DefineField(f, ty, Suffix(st.value));
      match st.ty
      case Node(k, args) =>
        if k == "array" || k == "Array" then [own] + Statements(f + ".*", args[0])
        else if k == "tuple" then [own] + ElementStatements(f, args, 0)
        else [own]
      case TypeLit(ms) => [own] + MemberStatements(f, ms)
      case _ => [own]
  }

  function ElementStatements(f: string, elems: seq<Desc>, start: nat): seq<Stmt>
    requires forall i | 0 <= i < |elems| :: WellFormed(elems[i])
    decreases SizeAll(elems), 3
  {
    if elems == [] then []
    else Statements(f + "[" + IntToString(start) + "]", elems[0]) + ElementStatements(f, elems[1..], start + 1)
  }

  function MemberStatements(f: string, ms: seq<Field>): seq<Stmt>
    requires forall i | 0 <= i < |ms| :: WellFormed(ms[i].ty)
    decreases SizeMembers(ms), 3
  {
    if ms == [] then []
    else Statements(f + "." + ms[0].name, ms[0].ty) + MemberStatements(f, ms[1..])
  }

  // ---------------------------------------------------------------------------
  // genFieldDef renders exactly those statements

  lemma {:induction false} TextsAppend(t: string, a: seq<Stmt>, b: seq<Stmt>)
    ensures Texts(t, a + b) == Texts(t, a) + Texts(t, b)
    decreases |a|
  {
    if a == [] {
      assert a + b == b;
    } else {
      var ab := a + b;
      assert ab[0] == a[0];
      assert ab[1..] == a[1..] + b;
      TextsAppend(t, a[1..], b);
      calc {
        Texts(t, ab);
        [StmtText(t, a[0])] + Texts(t, a[1..] + b);
        [StmtText(t, a[0])] + (Texts(t, a[1..]) + Texts(t, b));
        ([StmtText(t, a[0])] + Texts(t, a[1..])) + Texts(t, b);
      }
    }
  }

  /** The script of `a + b` is that of `a` followed by the lines of `b`. */
  lemma ScriptAppend(t: string, a: seq<Stmt>, b: seq<Stmt>)
    requires a != []
    ensures Script(t, a + b) == Script(t, a) + Tail(t, b)
  {
    TextsAppend(t, a, b);
    if b != [] {
      JoinAppend(Texts(t, a), Texts(t, b), "\n");
    } else {
      assert a + b == a;
    }
  }

  /** One more statement adds a newline and its text to the script. */
  lemma ScriptSnoc(t: string, a: seq<Stmt>, s: Stmt)
    requires a != []
    ensures Script(t, a + [s]) == Script(t, a) + "\n" + StmtText(t, s)
  {
    ScriptAppend(t, a, [s]);
    assert Texts(t, [s]) == [StmtText(t, s)];
    Assoc(Script(t, a), "\n", StmtText(t, s));
  }

  /** The lines of `a + b` after an earlier line: those of `a`, then those of `b`. */
  lemma TailAppend(t: string, a: seq<Stmt>, b: seq<Stmt>)
    requires a != []
    ensures Tail(t, a + b) == "\n" + Script(t, a) + Tail(t, b)
  {
    ScriptAppend(t, a, b);
    Assoc("\n", Script(t, a), Tail(t, b));
  }

  /** `[line, ...parts].join("\n")` is the statements' script. */
  lemma ScriptCons(t: string, s: Stmt, rest: seq<Stmt>)
    ensures Script(t, [s] + rest) == StmtText(t, s) + Tail(t, rest)
  {
    ScriptAppend(t, [s], rest);
  }

  /** `genFieldDef` throws exactly on the descriptors that are not well formed,
      and otherwise returns the newline-joined text of the statement sequence. */
  lemma {:induction false} GenerateIsScript(t: string, f: string, d: Desc)
    ensures Generate(t, f, d) == if WellFormed(d) then Ok(Script(t, Statements(f, d))) else TypeError
    decreases Size(d), 2
  {
    if Strip(d).Ok? {
      DispatchIsScript(t, f, Strip(d).value);
    }
  }

  lemma {:induction false} DispatchIsScript(t: string, f: string, st: Stage)
    ensures Dispatch(t, f, st) == if Dispatchable(st.ty) then Ok(Script(t, StageStatements(f, st))) else TypeError
    decreases Size(st.ty), 1
  {
    match st.ty
    case JNull =>
    case Node(k, args) =>
      if k in InternalTypes || k == "keyword" || k == "union" || k == "RECORD" {
        LeafIsScript(t, f, st);
      } else if k == "array" || k == "Array" {
        ArrayIsScript(t, f, st);
      } else if k == "tuple" {
        TupleIsScript(t, f, st);
      }
    case TypeLit(ms) =>
      ObjectIsScript(t, f, st);
    case _ =>
  }

  lemma LeafIsScript(t: string, f: string, st: Stage)
    requires st.ty.Node? && (st.ty.tag in InternalTypes || st.ty.tag in {"keyword", "union", "RECORD"})
    ensures Dispatch(t, f, st) == if Dispatchable(st.ty) then Ok(Script(t, StageStatements(f, st))) else TypeError
  {
    if Dispatchable(st.ty) {
      var own := StageStatements(f, st)[0];
      assert StageStatements(f, st) == [own];
      ScriptCons(t, own, []);
    }
  }

  lemma {:induction false} ArrayIsScript(t: string, f: string, st: Stage)
    requires st.ty.Node? && (st.ty.tag == "array" || st.ty.tag == "Array")
    ensures Dispatch(t, f, st) == if Dispatchable(st.ty) then Ok(Script(t, StageStatements(f, st))) else TypeError
    decreases Size(st.ty), 0
  {
    var args := st.ty.args;
    ArrayTag(st.ty.tag);
    if |args| > 0 {
      var own := DefineField(f, "array", Suffix(st.value));
      GenerateIsScript(t, f + ".*", args[0]);
      if Dispatchable(st.ty) {
        var rest := Statements(f + ".*", args[0]);
        assert StageStatements(f, st) == [own] + rest;
        ScriptCons(t, own, rest);
        Assoc(StmtText(t, own), "\n", Script(t, rest));
      }
    }
  }

  /** The tuple tag has no earlier branch in the dispatch chain. */
  lemma TupleTag()
    ensures "tuple" !in InternalTypes && DdlType(Node("tuple", [])) == Some("array")
  {
  }

  /** The array tags have no earlier branch in the dispatch chain. */
  lemma ArrayTag(k: string)
    requires k == "array" || k == "Array"
    ensures k !in InternalTypes && k != "keyword" && k != "RECORD" && DdlType(Node(k, [])) == Some("array")
  {
  }

  lemma {:induction false} TupleIsScript(t: string, f: string, st: Stage)
    requires st.ty.Node? && st.ty.tag == "tuple"
    ensures Dispatch(t, f, st) == if Dispatchable(st.ty) then Ok(Script(t, StageStatements(f, st))) else TypeError
    decreases Size(st.ty), 0
  {
    TupleTag();
    ElementsIsScript(t, f, st.ty.args, 0);
    if Dispatchable(st.ty) {
      var own := DefineField(f, "array", Suffix(st.value));
      var rest := ElementStatements(f, st.ty.args, 0);
      assert StageStatements(f, st) == [own] + rest;
      ScriptCons(t, own, rest);
    }
  }

  lemma {:induction false} ObjectIsScript(t: string, f: string, st: Stage)
    requires st.ty.TypeLit?
    ensures Dispatch(t, f, st) == if Dispatchable(st.ty) then Ok(Script(t, StageStatements(f, st))) else TypeError
    decreases Size(st.ty), 0
  {
    MembersIsScript(t, f, st.ty.members);
    if Dispatchable(st.ty) {
      ScriptCons(t, DefineField(f, "object", Suffix(st.value)), MemberStatements(f, st.ty.members));
    }
  }

  lemma {:induction false} ElementsIsScript(t: string, f: string, elems: seq<Desc>, start: nat)
    ensures Elements(t, f, elems, start) ==
      if forall i | 0 <= i < |elems| :: WellFormed(elems[i])
      then Ok(Tail(t, ElementStatements(f, elems, start)))
      else TypeError
    decreases SizeAll(elems), 3
  {
    if elems != [] {
      var p := f + "[" + IntToString(start) + "]";
      GenerateIsScript(t, p, elems[0]);
      ElementsIsScript(t, f, elems[1..], start + 1);
      if forall i | 0 <= i < |elems| :: WellFormed(elems[i]) {
        assert forall i | 0 <= i < |elems[1..]| :: WellFormed(elems[1..][i]) by {
          forall i | 0 <= i < |elems[1..]| ensures WellFormed(elems[1..][i]) {
            assert elems[1..][i] == elems[i + 1];
          }
        }
        var first := Statements(p, elems[0]);
        var rest := ElementStatements(f, elems[1..], start + 1);
        assert ElementStatements(f, elems, start) == first + rest;
        TailAppend(t, first, rest);
      } else {
        var i :| 0 <= i < |elems| && !WellFormed(elems[i]);
        if i > 0 { assert !WellFormed(elems[1..][i - 1]); }
      }
    }
  }

  lemma {:induction false} MembersIsScript(t: string, f: string, ms: seq<Field>)
    ensures Members(t, f, ms) ==
      if forall i | 0 <= i < |ms| :: WellFormed(ms[i].ty)
      then Ok(Tail(t, MemberStatements(f, ms)))
      else TypeError
    decreases SizeMembers(ms), 3
  {
    if ms != [] {
      var p := f + "." + ms[0].name;
      GenerateIsScript(t, p, ms[0].ty);
      MembersIsScript(t, f, ms[1..]);
      if forall i | 0 <= i < |ms| :: WellFormed(ms[i].ty) {
        assert forall i | 0 <= i < |ms[1..]| :: WellFormed(ms[1..][i].ty) by {
          forall i | 0 <= i < |ms[1..]| ensures WellFormed(ms[1..][i].ty) {
            assert ms[1..][i] == ms[i + 1];
          }
        }
        var first := Statements(p, ms[0].ty);
        var rest := MemberStatements(f, ms[1..]);
        assert MemberStatements(f, ms) == first + rest;
        TailAppend(t, first, rest);
      } else {
        var i :| 0 <= i < |ms| && !WellFormed(ms[i].ty);
        if i > 0 { assert !WellFormed(ms[1..][i - 1].ty); }
      }
    }
  }
}

=== FILE: fielddef_props.dfy ===
/**
 What `genFieldDef` guarantees about its output: where the paths of the
 emitted statements come from, when the output is empty, how the modifier
 wrappers combine, and how containers lay out their parts.
 */
module FieldDefProperties {
  import opened Js
  import opened Strings
  import opened Descriptor
  import opened Expr
  import opened FieldDef

  // ---------------------------------------------------------------------------
  // Paths

  /** Every definition in `ss` is for a path strictly below `f`. */
  ghost predicate Below(f: string, ss: seq<Stmt>) {
    forall i :: 0 <= i < |ss| && ss[i].DefineField? ==> IsPrefix(f, ss[i].path) && |ss[i].path| > |f|
  }

  lemma PrefixTrans(a: string, b: string, c: string)
    requires IsPrefix(a, b) && IsPrefix(b, c)
    ensures IsPrefix(a, c)
  {
    assert c[..|a|] == c[..|b|][..|a|];
  }

  lemma BelowChild(f: string, child: string, ss: seq<Stmt>)
    requires IsPrefix(f, child) && |child| > |f|
    requires ss != [] && (ss[0].DefineField? ==> ss[0].path == child)
    requires Below(child, ss[1..])
    ensures Below(f, ss)
  {
    forall i | 0 <= i < |ss| && ss[i].DefineField?
      ensures IsPrefix(f, ss[i].path) && |ss[i].path| > |f|
    {
      if i > 0 {
        assert ss[1..][i - 1] == ss[i];
        PrefixTrans(f, child, ss[i].path);
      }
    }
  }

  lemma BelowAppend(f: string, a: seq<Stmt>, b: seq<Stmt>)
    requires Below(f, a) && Below(f, b)
    ensures Below(f, a + b)
  {
    forall i | 0 <= i < |a + b| && (a + b)[i].DefineField?
      ensures IsPrefix(f, (a + b)[i].path) && |(a + b)[i].path| > |f|
    {
      if i >= |a| { assert (a + b)[i] == b[i - |a|]; }
    }
  }

  lemma ExtendPath(f: string, suffix: string)
    requires |suffix| > 0
    ensures IsPrefix(f, f + suffix) && |f + suffix| > |f|
  {
    assert (f + suffix)[..|f|] == f;
  }

  /** The first statement is the field's own definition, at path `f`; every
      later one defines a path that extends `f` (`f.*`, `f[i]...`, `f.<name>...`). */
  lemma {:induction false} StatementPaths(f: string, d: Desc)
    requires WellFormed(d)
    ensures Statements(f, d)[0].DefineField? ==> Statements(f, d)[0].path == f
    ensures Below(f, Statements(f, d)[1..])
    decreases Size(d), 2
  {
    var st := Strip(d).value;
    var ss := Statements(f, d);
    match st.ty
    case Node(k, args) =>
      if DdlType(st.ty).Some? {
        if k == "array" || k == "Array" {
          StatementPaths(f + ".*", args[0]);
          ExtendPath(f, ".*");
          BelowChild(f, f + ".*", Statements(f + ".*", args[0]));
          assert ss[1..] == Statements(f + ".*", args[0]);
        } else if k == "tuple" {
          ElementPaths(f, args, 0);
          assert ss[1..] == ElementStatements(f, args, 0);
        }
      }
    case TypeLit(ms) =>
      MemberPaths(f, ms);
      assert ss[1..] == MemberStatements(f, ms);
    case _ =>
  }

  lemma {:induction false} ElementPaths(f: string, elems: seq<Desc>, start: nat)
    requires forall i | 0 <= i < |elems| :: WellFormed(elems[i])
    ensures Below(f, ElementStatements(f, elems, start))
    decreases SizeAll(elems), 3
  {
    if elems != [] {
      var p := f + "[" + IntToString(start) + "]";
      StatementPaths(p, elems[0]);
      ExtendPath(f, "[" + IntToString(start) + "]");
      BelowChild(f, p, Statements(p, elems[0]));
      assert forall i | 0 <= i < |elems[1..]| :: WellFormed(elems[1..][i]) by {
        forall i | 0 <= i < |elems[1..]| ensures WellFormed(elems[1..][i]) {
          assert elems[1..][i] == elems[i + 1];
        }
      }
      ElementPaths(f, elems[1..], start + 1);
      BelowAppend(f, Statements(p, elems[0]), ElementStatements(f, elems[1..], start + 1));
    }
  }

  lemma {:induction false} MemberPaths(f: string, ms: seq<Field>)
    requires forall i | 0 <= i < |ms| :: WellFormed(ms[i].ty)
    ensures Below(f, MemberStatements(f, ms))
    decreases SizeMembers(ms), 3
  {
    if ms != [] {
      var p := f + "." + ms[0].name;
      StatementPaths(p, ms[0].ty);
      ExtendPath(f, "." + ms[0].name);
      BelowChild(f, p, Statements(p, ms[0].ty));
      assert forall i | 0 <= i < |ms[1..]| :: WellFormed(ms[1..][i].ty) by {
        forall i | 0 <= i < |ms[1..]| ensures WellFormed(ms[1..][i].ty) {
          assert ms[1..][i] == ms[i + 1];
        }
      }
      MemberPaths(f, ms[1..]);
      BelowAppend(f, Statements(p, ms[0].ty), MemberStatements(f, ms[1..]));
    }
  }

  // ---------------------------------------------------------------------------
  // Empty output

  /** A descriptor with no modifier wrapper is dispatched as it is, with an
      empty pending value. */
  lemma StripUnwrapped(d: Desc)
    requires d != JNull && !(d.Node? && d.tag in {"WITH_DEFAULT", "WITH_VALUE", "FUTURE"})
    ensures Strip(d) == Ok(Stage(Str(""), d))
  {
    assert StripOne(WithDefault, Stage(Str(""), d)) == Ok(Stage(Str(""), d));
    assert StripOne(WithValue, Stage(Str(""), d)) == Ok(Stage(Str(""), d));
  }

  lemma GenerateFromStrip(t: string, f: string, d: Desc, st: Stage)
    requires Strip(d) == Ok(st)
    ensures Generate(t, f, d) == Dispatch(t, f, st)
  {
  }

  lemma DispatchUnhandled(t: string, f: string, st: Stage)
    requires Unhandled(st.ty)
    ensures Dispatch(t, f, st) == Ok("")
  {
  }

  lemma GenerateUnwrapped(t: string, f: string, d: Desc)
    requires d != JNull && !(d.Node? && d.tag in {"WITH_DEFAULT", "WITH_VALUE", "FUTURE"})
    ensures Generate(t, f, d) == Dispatch(t, f, Stage(Str(""), d))
  {
    StripUnwrapped(d);
  }

  /** The tags the dispatch chain has a branch for. */
  predicate Handled(k: string) {
    k in InternalTypes || k in {"keyword", "RECORD", "array", "Array", "typeLiteral", "tuple", "union"}
  }

  /** What is left after stripping falls through every branch: a primitive, or
      a node whose tag has no branch (`ASSERT`, `RELATION`, a modifier out of
      order, an entity name, ...). */
  predicate Unhandled(x: Desc) {
    x.JBool? || x.JInt? || x.JStr? || (x.Node? && !Handled(x.tag))
  }

  /** `genFieldDef` returns `""` (and does not throw) exactly when the stripped
      descriptor falls through every branch. */
  lemma EmptyIffUnhandled(t: string, f: string, d: Desc)
    ensures Generate(t, f, d) == Ok("") <==> Strip(d).Ok? && Unhandled(Strip(d).value.ty)
  {
    GenerateIsScript(t, f, d);
    if Generate(t, f, d) == Ok("") {
      var ss := Statements(f, d);
      ScriptCons(t, ss[0], ss[1..]);
      assert [ss[0]] + ss[1..] == ss;
      assert ss[0] == Blank;
    }
  }

  /** `ASSERT` has no branch: the field produces nothing, whatever it wraps. */
  lemma AssertEmitsNothing(t: string, f: string, args: seq<Desc>)
    ensures Generate(t, f, Node("ASSERT", args)) == Ok("")
  {
    EmptyIffUnhandled(t, f, Node("ASSERT", args));
  }

  // ---------------------------------------------------------------------------
  // Modifiers

  lemma StripOneOther(m: Modifier, st: Stage)
    requires st.ty != JNull && !(st.ty.Node? && st.ty.tag == ModifierTag(m))
    ensures StripOne(m, st) == Ok(st)
  {
  }

  lemma StripOuter(outer: Modifier, x: Desc, q: Desc, rest: seq<Desc>, v: JsValue)
    requires q != JNull
    ensures StripOne(outer, Stage(v, Node(ModifierTag(outer), [x, q] + rest)))
         == Ok(Stage(Assign(outer, Render(Defined(q)).value), x))
  {
    var d := Node(ModifierTag(outer), [x, q] + rest);
    assert Arg(d.args, 1) == Defined(q);
    assert d.args[0] == x;
  }

  /** Stripping stops at a modifier that does not come after the one just stripped. */
  lemma StripOutOfOrder(outer: Modifier, inner: Modifier, a: seq<Desc>, q: Desc, rest: seq<Desc>)
    requires Rank(inner) <= Rank(outer)
    requires q != JNull
    ensures Strip(Node(ModifierTag(outer), [Node(ModifierTag(inner), a), q] + rest))
         == Ok(Stage(Assign(outer, Render(Defined(q)).value), Node(ModifierTag(inner), a)))
  {
    var x := Node(ModifierTag(inner), a);
    var d := Node(ModifierTag(outer), [x, q] + rest);
    var s0 := Stage(Str(""), d);
    var st := Stage(Assign(outer, Render(Defined(q)).value), x);
    StripOuter(outer, x, q, rest, Str(""));
    match outer
    case WithDefault =>
      StripOneOther(WithValue, st);
      StripOneOther(Future, st);
    case WithValue =>
      StripOneOther(WithDefault, s0);
      StripOneOther(Future, st);
    case Future =>
      StripOneOther(WithDefault, s0);
      StripOneOther(WithValue, s0);
  }

  /** Stripping a single modifier around an unwrapped descriptor leaves its
      payload's text as the pending value. */
  lemma StripSingle(m: Modifier, x: Desc, p: Desc)
    requires p != JNull && x != JNull && !(x.Node? && x.tag in {"WITH_DEFAULT", "WITH_VALUE", "FUTURE"})
    ensures Strip(Node(ModifierTag(m), [x, p])) == Ok(Stage(Assign(m, Render(Defined(p)).value), x))
  {
    var d := Node(ModifierTag(m), [x, p]);
    var s0 := Stage(Str(""), d);
    var st := Stage(Assign(m, Render(Defined(p)).value), x);
    StripOuter(m, x, p, [], Str(""));
    assert [x, p] + [] == [x, p];
    match m
    case WithDefault =>
      StripOneOther(WithValue, st);
      StripOneOther(Future, st);
    case WithValue =>
      StripOneOther(WithDefault, s0);
      StripOneOther(Future, st);
    case Future =>
      StripOneOther(WithDefault, s0);
      StripOneOther(WithValue, s0);
  }

  /** A single modifier around an unwrapped descriptor: its payload's text
      becomes the pending value and the descriptor is dispatched. */
  lemma SingleModifier(t: string, f: string, m: Modifier, x: Desc, p: Desc)
    requires p != JNull && x != JNull && !(x.Node? && x.tag in {"WITH_DEFAULT", "WITH_VALUE", "FUTURE"})
    ensures Generate(t, f, Node(ModifierTag(m), [x, p])) == Dispatch(t, f, Stage(Assign(m, Render(Defined(p)).value), x))
  {
    StripSingle(m, x, p);
    GenerateFromStrip(t, f, Node(ModifierTag(m), [x, p]), Stage(Assign(m, Render(Defined(p)).value), x));
  }

  /** A scalar tag dispatches to its one line. */
  lemma DispatchScalar(t: string, f: string, v: JsValue, k: string, args: seq<Desc>)
    requires k in InternalTypes || k == "keyword" || k == "union"
    ensures Dispatch(t, f, Stage(v, Node(k, args)))
         == Ok(Line(t, f, if k in InternalTypes then InternalTypes[k] else "any", Suffix(v)))
  {
  }

  /** A modifier wrapped in one that comes at or after it in the fixed order
      (`WITH_VALUE` around `WITH_DEFAULT`, or the same modifier twice) is never
      stripped, so the field compiles to `""`. */
  lemma OutOfOrderModifiers(t: string, f: string, outer: Modifier, inner: Modifier, a: seq<Desc>, q: Desc, rest: seq<Desc>)
    requires Rank(inner) <= Rank(outer)
    requires q != JNull
    ensures Generate(t, f, Node(ModifierTag(outer), [Node(ModifierTag(inner), a), q] + rest)) == Ok("")
  {
    var d := Node(ModifierTag(outer), [Node(ModifierTag(inner), a), q] + rest);
    var st := Stage(Assign(outer, Render(Defined(q)).value), Node(ModifierTag(inner), a));
    StripOutOfOrder(outer, inner, a, q, rest);
    GenerateFromStrip(t, f, d, st);
    DispatchUnhandled(t, f, st);
  }

  /** Two modifiers in the fixed order are both stripped, and the inner one,
      stripped later, overwrites the VALUE text: the outer payload leaves no
      trace (a non-null outer payload is only rendered and discarded). */
  lemma OuterModifierDiscarded(t: string, f: string, outer: Modifier, inner: Modifier, a: seq<Desc>, q: Desc, rest: seq<Desc>)
    requires Rank(outer) < Rank(inner)
    requires q != JNull
    ensures Generate(t, f, Node(ModifierTag(outer), [Node(ModifierTag(inner), a), q] + rest))
         == Generate(t, f, Node(ModifierTag(inner), a))
  {
    var d := Node(ModifierTag(outer), [Node(ModifierTag(inner), a), q] + rest);
    assert Arg(d.args, 1) == Defined(q);
    assert Strip(d) == Strip(Node(ModifierTag(inner), a));
  }

  /** A `WITH_VALUE` whose payload renders as the empty string (an
      `SQL_EXPR` of `''`) leaves `valueStr` empty, so over a descriptor with no
      `WITH_DEFAULT` or `WITH_VALUE` of its own it is as if it were not there. */
  lemma EmptyValueDropped(t: string, f: string, a: seq<Desc>)
    requires |a| >= 1 && Render(Arg(a, 1)) == Ok(Str(""))
    requires !(a[0].Node? && a[0].tag in {"WITH_DEFAULT", "WITH_VALUE"})
    ensures Generate(t, f, Node("WITH_VALUE", a)) == Generate(t, f, a[0])
  {
    StripValueFirst(a);
    StripPlainFirst(a[0]);
  }

  /** Any other falsy payload (a missing one, or an `SQL_EXPR` of `null`,
      `false` or `0`) is not dropped: the guard only withholds the `" VALUE "`
      prefix, and `${valueStr}` prints the value itself straight after the
      type name, as in `TYPE intundefined;`. */
  lemma FalsyValuePrintedRaw(t: string, f: string, k: string, args: seq<Desc>, rest: seq<Desc>)
    requires k in InternalTypes || k == "keyword" || k == "union"
    requires Render(Arg([Node(k, args)] + rest, 1)).Ok? && !Truthy(Render(Arg([Node(k, args)] + rest, 1)).value)
    ensures Generate(t, f, Node("WITH_VALUE", [Node(k, args)] + rest))
         == Ok(Line(t, f, if k in InternalTypes then InternalTypes[k] else "any",
                    ToText(Render(Arg([Node(k, args)] + rest, 1)).value)))
  {
    var a := [Node(k, args)] + rest;
    var e := Render(Arg(a, 1)).value;
    StripValueFirst(a);
    StripOneOther(Future, Stage(e, Node(k, args)));
    GenerateFromStrip(t, f, Node("WITH_VALUE", a), Stage(e, Node(k, args)));
    DispatchScalar(t, f, e, k, args);
  }

  /** Stripping a `WITH_VALUE` around a descriptor with no `WITH_DEFAULT` or
      `WITH_VALUE` of its own leaves only the `FUTURE` step. */
  lemma StripValueFirst(a: seq<Desc>)
    requires |a| >= 1 && Render(Arg(a, 1)).Ok?
    ensures Strip(Node("WITH_VALUE", a)) == StripOne(Future, Stage(Render(Arg(a, 1)).value, a[0]))
  {
    var d := Node("WITH_VALUE", a);
    StripOneOther(WithDefault, Stage(Str(""), d));
  }

  lemma StripPlainFirst(x: Desc)
    requires !(x.Node? && x.tag in {"WITH_DEFAULT", "WITH_VALUE"})
    ensures Strip(x) == StripOne(Future, Stage(Str(""), x))
  {
    if x != JNull {
      StripOneOther(WithDefault, Stage(Str(""), x));
      StripOneOther(WithValue, Stage(Str(""), x));
    }
  }

  /** Stripping a modifier puts its VALUE clause on the field's own line only:
      the statements of an array's element are those of the bare element. */
  lemma ModifierOnOwnLineOnly(f: string, m: Modifier, x: Desc, p: Desc)
    requires WellFormed(x) && p != JNull
    ensures WellFormed(Node(ModifierTag(m), [Node("array", [x]), p]))
    ensures var ss := Statements(f, Node(ModifierTag(m), [Node("array", [x]), p]));
      ss[0] == DefineField(f, "array", Suffix(Assign(m, Render(Defined(p)).value)))
      && ss[1..] == Statements(f + ".*", x)
  {
    StripSingle(m, Node("array", [x]), p);
    ArrayStatements(f, Assign(m, Render(Defined(p)).value), "array", [x]);
  }

  /** The `FUTURE` wrapper puts `<future> ` before its rendered payload, while
      a `FUTURE` node used as a payload renders as fixed text. */
  lemma FutureTwoRenderings(t: string, f: string, k: string, p: Desc)
    requires k in InternalTypes && p != JNull
    ensures Generate(t, f, Node("FUTURE", [Node(k, []), p]))
         == Ok(Line(t, f, InternalTypes[k], Clause("<future> " + ToText(Render(Defined(p)).value))))
    ensures Generate(t, f, Node("WITH_VALUE", [Node(k, []), Node("FUTURE", [Node(k, []), p])]))
         == Ok(Line(t, f, InternalTypes[k], Clause(FutureText)))
  {
    var x, d := Node(k, []), Node("FUTURE", [Node(k, []), p]);
    var r := Render(Defined(p)).value;
    SingleModifier(t, f, Future, x, p);
    DispatchScalar(t, f, Assign(Future, r), k, []);
    TextValue("<future> " + ToText(r));
    SingleModifier(t, f, WithValue, x, d);
    FutureIgnoresPayload(d.args, []);
    DispatchScalar(t, f, Str(FutureText), k, []);
    TextValue(FutureText);
  }

  /** A non-empty string is truthy and prints as a VALUE clause of itself. */
  lemma TextValue(s: string)
    requires s != ""
    ensures Suffix(Str(s)) == Clause(s)
  {
  }

  // ---------------------------------------------------------------------------
  // Dispatch

  lemma LeafLine(t: string, f: string, k: string, args: seq<Desc>, ty: string)
    requires (k in InternalTypes && InternalTypes[k] == ty) || ((k == "keyword" || k == "union") && ty == "any")
    ensures Generate(t, f, Node(k, args)) == Ok(Line(t, f, ty, ""))
  {
    GenerateUnwrapped(t, f, Node(k, args));
    assert Suffix(Str("")) == "";
  }

  /** The scalar tags and their schema types: one line, no VALUE clause. */
  lemma ScalarTypes(t: string, f: string, args: seq<Desc>)
    ensures Generate(t, f, Node("STRING", args)) == Ok(Line(t, f, "string", ""))
    ensures Generate(t, f, Node("INT", args)) == Ok(Line(t, f, "int", ""))
    ensures Generate(t, f, Node("BOOL", args)) == Ok(Line(t, f, "bool", ""))
    ensures Generate(t, f, Node("DECIMAL", args)) == Ok(Line(t, f, "decimal", ""))
    ensures Generate(t, f, Node("keyword", args)) == Ok(Line(t, f, "any", ""))
    ensures Generate(t, f, Node("union", args)) == Ok(Line(t, f, "any", ""))
  {
    LeafLine(t, f, "STRING", args, "string");
    LeafLine(t, f, "INT", args, "int");
    LeafLine(t, f, "BOOL", args, "bool");
    LeafLine(t, f, "DECIMAL", args, "decimal");
    LeafLine(t, f, "keyword", args, "any");
    LeafLine(t, f, "union", args, "any");
  }

  /** `RECORD<X>` declares `record(<tag of X>)`; a type literal reads as
      `typeLiteral`; a primitive argument has no tag and gives
      `record(undefined)`; a missing or null one throws. */
  lemma RecordTarget(t: string, f: string, args: seq<Desc>)
    ensures |args| == 0 || args[0] == JNull ==> Generate(t, f, Node("RECORD", args)) == TypeError
    ensures |args| > 0 && args[0].Node? ==>
      Generate(t, f, Node("RECORD", args)) == Ok(Line(t, f, "record(" + args[0].tag + ")", ""))
    ensures |args| > 0 && args[0].TypeLit? ==>
      Generate(t, f, Node("RECORD", args)) == Ok(Line(t, f, "record(typeLiteral)", ""))
    ensures |args| > 0 && (args[0].JBool? || args[0].JInt? || args[0].JStr?) ==>
      Generate(t, f, Node("RECORD", args)) == Ok(Line(t, f, "record(undefined)", ""))
  {
    GenerateUnwrapped(t, f, Node("RECORD", args));
    RecordDispatch(t, f, args);
    if |args| > 0 {
      RecordTargetText(args[0]);
    }
  }

  lemma RecordTargetText(x: Desc)
    ensures x.Node? ==> TypeOf(x) == Ok(Str(x.tag)) && "record(" + ToText(Str(x.tag)) + ")" == "record(" + x.tag + ")"
    ensures x.JBool? || x.JInt? || x.JStr? ==>
      TypeOf(x) == Ok(Undefined) && "record(" + ToText(Undefined) + ")" == "record(undefined)"
    ensures x.TypeLit? ==> TypeOf(x) == Ok(Str("typeLiteral")) && "record(" + ToText(Str("typeLiteral")) + ")" == "record(typeLiteral)"
  {
  }

  lemma RecordDispatch(t: string, f: string, args: seq<Desc>)
    ensures Dispatch(t, f, Stage(Str(""), Node("RECORD", args))) ==
      if |args| == 0 then TypeError
      else match TypeOf(args[0])
        case TypeError => TypeError
        case Ok(target) => Ok(Line(t, f, "record(" + ToText(target) + ")", ""))
  {
    assert Suffix(Str("")) == "";
    assert "RECORD" !in InternalTypes;
  }

  /** An array of `x`: the array line, then the lines of `x` at `f.*`. */
  lemma ArrayLayout(f: string, tag: string, x: Desc, rest: seq<Desc>)
    requires tag == "array" || tag == "Array"
    requires WellFormed(x)
    ensures WellFormed(Node(tag, [x] + rest))
    ensures Statements(f, Node(tag, [x] + rest)) == [DefineField(f, "array", "")] + Statements(f + ".*", x)
  {
    var d := Node(tag, [x] + rest);
    assert d.args[0] == x;
    ArrayStatements(f, Str(""), tag, d.args);
    StatementsUnwrapped(f, d);
  }

  lemma ArrayStatements(f: string, v: JsValue, tag: string, args: seq<Desc>)
    requires tag == "array" || tag == "Array"
    requires |args| > 0 && WellFormed(args[0])
    ensures Dispatchable(Node(tag, args))
    ensures StageStatements(f, Stage(v, Node(tag, args)))
         == [DefineField(f, "array", Suffix(v))] + Statements(f + ".*", args[0])
  {
    assert DdlType(Node(tag, args)) == Some("array");
  }

  lemma StatementsUnwrapped(f: string, d: Desc)
    requires d != JNull && !(d.Node? && d.tag in {"WITH_DEFAULT", "WITH_VALUE", "FUTURE"})
    requires Dispatchable(d)
    ensures WellFormed(d) && Statements(f, d) == StageStatements(f, Stage(Str(""), d))
  {
    StripUnwrapped(d);
  }

  lemma SmallNumerals()
    ensures IntToString(0) == "0" && IntToString(1) == "1"
  {
    assert DigitChar(0) == '0' && DigitChar(1) == '1';
  }

  lemma ElementPair(f: string, a: Desc, b: Desc)
    requires WellFormed(a) && WellFormed(b)
    ensures ElementStatements(f, [a, b], 0) == Statements(f + "[0]", a) + Statements(f + "[1]", b)
  {
    PairWellFormed(a, b);
    ElementFirst(f, [a, b], 0);
    assert [a, b][0] == a && [a, b][1..] == [b];
    ElementLast(f, b, 1);
    ElementPaths01(f);
  }

  /** The paths of the first two tuple elements. */
  lemma ElementPaths01(f: string)
    ensures f + "[" + IntToString(0) + "]" == f + "[0]"
    ensures f + "[" + IntToString(1) + "]" == f + "[1]"
  {
    SmallNumerals();
    Assoc(f + "[", "0", "]");
    Assoc(f, "[", "0]");
    Assoc(f + "[", "1", "]");
    Assoc(f, "[", "1]");
  }

  /** The statements of the first element, then those of the rest. */
  lemma ElementFirst(f: string, elems: seq<Desc>, start: nat)
    requires elems != [] && forall i | 0 <= i < |elems| :: WellFormed(elems[i])
    ensures ElementStatements(f, elems, start)
         == Statements(f + "[" + IntToString(start) + "]", elems[0]) + ElementStatements(f, elems[1..], start + 1)
  {
  }

  lemma ElementLast(f: string, b: Desc, start: nat)
    requires WellFormed(b)
    ensures [b][1..] == []
    ensures ElementStatements(f, [b], start) == Statements(f + "[" + IntToString(start) + "]", b)
  {
    assert [b][1..] == [];
    assert ElementStatements(f, [b], start) == Statements(f + "[" + IntToString(start) + "]", b) + [];
  }

  lemma MemberCons(f: string, m: Field, rest: seq<Field>)
    requires WellFormed(m.ty) && forall i | 0 <= i < |rest| :: WellFormed(rest[i].ty)
    ensures forall i | 0 <= i < |[m] + rest| :: WellFormed(([m] + rest)[i].ty)
    ensures MemberStatements(f, [m] + rest) == Statements(f + "." + m.name, m.ty) + MemberStatements(f, rest)
  {
    assert ([m] + rest)[1..] == rest;
    assert forall i | 0 <= i < |[m] + rest| :: ([m] + rest)[i] == if i == 0 then m else rest[i - 1];
  }

  lemma MemberPair(f: string, ma: Field, mb: Field)
    requires WellFormed(ma.ty) && WellFormed(mb.ty)
    ensures MemberStatements(f, [ma, mb]) == Statements(f + "." + ma.name, ma.ty) + Statements(f + "." + mb.name, mb.ty)
  {
    assert [ma, mb] == [ma] + [mb];
    assert [mb] == [mb] + [];
    MemberCons(f, mb, []);
    MemberCons(f, ma, [mb]);
  }

  lemma PairWellFormed(a: Desc, b: Desc)
    requires WellFormed(a) && WellFormed(b)
    ensures forall i | 0 <= i < |[a, b]| :: WellFormed([a, b][i])
  {
  }

  lemma MemberPairWellFormed(ma: Field, mb: Field)
    requires WellFormed(ma.ty) && WellFormed(mb.ty)
    ensures forall i | 0 <= i < |[ma, mb]| :: WellFormed([ma, mb][i].ty)
  {
  }

  lemma NoValue()
    ensures Suffix(Str("")) == ""
  {
  }

  lemma TupleStatements(f: string, v: JsValue, args: seq<Desc>)
    requires forall i | 0 <= i < |args| :: WellFormed(args[i])
    ensures Dispatchable(Node("tuple", args))
    ensures StageStatements(f, Stage(v, Node("tuple", args)))
         == [DefineField(f, "array", Suffix(v))] + ElementStatements(f, args, 0)
  {
    assert DdlType(Node("tuple", args)) == Some("array");
  }

  lemma ObjectStatements(f: string, v: JsValue, ms: seq<Field>)
    requires forall i | 0 <= i < |ms| :: WellFormed(ms[i].ty)
    ensures Dispatchable(TypeLit(ms))
    ensures StageStatements(f, Stage(v, TypeLit(ms)))
         == [DefineField(f, "object", Suffix(v))] + MemberStatements(f, ms)
  {
  }

  /** A pair `[A, B]`: the array line, then the lines of `A` at `f[0]`, then
      those of `B` at `f[1]`. */
  lemma TuplePair(f: string, a: Desc, b: Desc)
    requires WellFormed(a) && WellFormed(b)
    ensures WellFormed(Node("tuple", [a, b])) && Statements(f, Node("tuple", [a, b]))
         == [DefineField(f, "array", "")] + Statements(f + "[0]", a) + Statements(f + "[1]", b)
  {
    var d := Node("tuple", [a, b]);
    PairWellFormed(a, b);
    TupleStatements(f, Str(""), d.args);
    StatementsUnwrapped(f, d);
    ElementPair(f, a, b);
    NoValue();
    Assoc([DefineField(f, "array", "")], Statements(f + "[0]", a), Statements(f + "[1]", b));
  }

  /** A type literal `{ a: A, b: B }`: the object line, then the lines of `a`
      and `b` in declaration order. */
  lemma ObjectOrder(f: string, ma: Field, mb: Field)
    requires WellFormed(ma.ty) && WellFormed(mb.ty)
    ensures WellFormed(TypeLit([ma, mb]))
    ensures Statements(f, TypeLit([ma, mb]))
         == [DefineField(f, "object", "")] + Statements(f + "." + ma.name, ma.ty) + Statements(f + "." + mb.name, mb.ty)
  {
    var d := TypeLit([ma, mb]);
    MemberPairWellFormed(ma, mb);
    ObjectStatements(f, Str(""), d.members);
    StatementsUnwrapped(f, d);
    MemberPair(f, ma, mb);
    NoValue();
    Assoc([DefineField(f, "object", "")], Statements(f + "." + ma.name, ma.ty), Statements(f + "." + mb.name, mb.ty));
  }

  /** A part that compiles to nothing still takes a line: the joined output
      has an empty line where its statements would be. */
  lemma EmptyPartLeavesBlankLine(t: string, f: string, x: Desc)
    requires Generate(t, f + ".*", x) == Ok("")
    ensures Generate(t, f, Node("array", [x])) == Ok(Line(t, f, "array", "") + "\n")
  {
    var d := Node("array", [x]);
    GenerateUnwrapped(t, f, d);
    assert d.args[0] == x;
    assert Suffix(Str("")) == "";
    assert Dispatch(t, f, Stage(Str(""), d)) == Ok(Line(t, f, "array", "") + "\n" + "");
    assert Line(t, f, "array", "") + "\n" + "" == Line(t, f, "array", "") + "\n";
  }

}

=== FILE: js.dfy ===
/**
 Two wrappers the JavaScript source expresses implicitly: an optional value,
 and the completion of an evaluation, which either yields a value or throws
 the `TypeError` that reading a property of `null` or `undefined` raises.
 Both support `:-`, so a throw propagates exactly as an uncaught exception does.
 */
module Js {

  datatype Option<+T> = None | Some(value: T)

  datatype Result<+T> = Ok(value: T) | TypeError {

    predicate IsFailure() {
      TypeError?
    }

    function PropagateFailure<U>(): Result<U>
      requires TypeError?
    {
      TypeError
    }

    function Extract(): T
      requires Ok?
    {
      value
    }
  }
}

=== FILE: json.dfy ===
/**
 `JSON.stringify` on a string value: the string between double quotes, with
 the quote, the backslash and every control character below U+0020 escaped,
 and `JSON.parse` on such a literal, used as its inverse.
 */
module Json {
  import opened Strings
  import opened Js

  function HexDigit(d: nat): (c: char)
    requires d < 16
    ensures HexValue(c) == Some(d)
  {
    "0123456789abcdef"[d]
  }

  function HexValue(c: char): (r: Option<nat>)
    ensures r.Some? ==> r.value < 16
  {
    if '0' <= c <= '9' then Some(c as int - '0' as int)
    else if 'a' <= c <= 'f' then Some(c as int - 'a' as int + 10)
    else if 'A' <= c <= 'F' then Some(c as int - 'A' as int + 10)
    else None
  }

  /** The escape JSON.stringify writes for one character. */
  function EscapeChar(c: char): (e: string)
    ensures '\n' !in e
    ensures |e| >= 1
  {
    if c == '"' then "\\\""
    else if c == '\\' then "\\\\"
    else if c == '\U{0008}' then "\\b"
    else if c == '\U{000C}' then "\\f"
    else if c == '\n' then "\\n"
    else if c == '\r' then "\\r"
    else if c == '\t' then "\\t"
    else if c < ' ' then "\\u00" + [HexDigit(c as int / 16), HexDigit(c as int % 16)]
    else [c]
  }

  function Escape(s: string): (e: string)
    ensures '\n' !in e
    decreases |s|
  {
    if s == [] then "" else EscapeChar(s[0]) + Escape(s[1..])
  }

  /** `JSON.stringify(s)` for a string `s`. */
  function Quote(s: string): (q: string)
  {
    "\"" + Escape(s) + "\""
  }

  /** Value of four hexadecimal digits, if they are four hexadecimal digits. */
  function Hex4(h: string): (r: Option<nat>)
    requires |h| == 4
    ensures r.Some? ==> r.value < 0x10000
  {
    match (HexValue(h[0]), HexValue(h[1]), HexValue(h[2]), HexValue(h[3]))
    case (Some(a), Some(b), Some(c), Some(d)) => Some(((a * 16 + b) * 16 + c) * 16 + d)
    case _ => None
  }

  /** The body of a JSON string literal, decoded; `None` where JSON.parse would throw. */
  function Unescape(s: string): Option<string>
    decreases |s|
  {
    if s == [] then Some([])
    else if s[0] == '\\' then
      if |s| < 2 then None
      else if s[1] == 'u' then
        if |s| < 6 then None
        else match Hex4(s[2..6])
          case None => None
          case Some(code) =>
            if 0xD800 <= code < 0xE000 then None
            else match Unescape(s[6..])
              case None => None
              case Some(rest) => Some([code as char] + rest)
      else
        var c :=
          if s[1] == '"' then Some('"')
          else if s[1] == '\\' then Some('\\')
          else if s[1] == '/' then Some('/')
          else if s[1] == 'b' then Some('\U{0008}')
          else if s[1] == 'f' then Some('\U{000C}')
          else if s[1] == 'n' then Some('\n')
          else if s[1] == 'r' then Some('\r')
          else if s[1] == 't' then Some('\t')
          else None;
        match (c, Unescape(s[2..]))
        case (Some(x), Some(rest)) => Some([x] + rest)
        case _ => None
    else if s[0] == '"' || s[0] < ' ' then None
    else match Unescape(s[1..])
      case None => None
      case Some(rest) => Some([s[0]] + rest)
  }

  /** `JSON.parse` restricted to string literals. */
  function Unquote(q: string): Option<string> {
    if |q| >= 2 && q[0] == '"' && q[|q| - 1] == '"' then Unescape(q[1..|q| - 1]) else None
  }

  lemma EscapeCharThenUnescape(c: char, tail: string)
    ensures Unescape(EscapeChar(c) + tail) ==
      match Unescape(tail) case None => None case Some(rest) => Some([c] + rest)
  {
    var s := EscapeChar(c) + tail;
    if c < ' ' && c != '\U{0008}' && c != '\U{000C}' && c != '\n' && c != '\r' && c != '\t' {
      var n := c as int;
      assert s[2..6] == ['0', '0', HexDigit(n / 16), HexDigit(n % 16)];
      assert Hex4(s[2..6]) == Some(n);
      assert s[6..] == tail;
    } else if c == '"' || c == '\\' || c == '\U{0008}' || c == '\U{000C}' || c == '\n' || c == '\r' || c == '\t' {
      assert s[2..] == tail;
    } else {
      assert s[1..] == tail;
    }
  }

  lemma {:induction false} UnescapeEscape(s: string)
    ensures Unescape(Escape(s)) == Some(s)
    decreases |s|
  {
    if s != [] {
      UnescapeEscape(s[1..]);
      EscapeCharThenUnescape(s[0], Escape(s[1..]));
      assert [s[0]] + s[1..] == s;
    }
  }

  /** JSON.parse(JSON.stringify(s)) == s, and the literal holds no raw newline. */
  lemma QuoteRoundTrip(s: string)
    ensures Unquote(Quote(s)) == Some(s)
    ensures '\n' !in Quote(s)
  {
    var q := Quote(s);
    assert q[1..|q| - 1] == Escape(s);
    UnescapeEscape(s);
  }
}

=== FILE: schema.dfy ===
/**
 The schema script: one `DEFINE TABLE <name> SCHEMAFULL;` line per entity in
 key order, a newline, then the field definitions of every entity joined with
 newlines. An entity without members becomes a one-line comment holding its
 JSON; each field of an entity with members contributes what `genFieldDef`
 gives for it, possibly nothing but an empty line.
 */
module Schema {
  import opened Js
  import opened Strings
  import opened Descriptor
  import opened FieldDef
  import opened Entities

  function TableLine(k: string): string {
    "DEFINE TABLE " + k + " SCHEMAFULL;"
  }

  function TableLines(keys: seq<string>): (r: seq<string>)
    ensures |r| == |keys|
    ensures forall i :: 0 <= i < |keys| ==> r[i] == TableLine(keys[i])
  {
    if keys == [] then [] else [TableLine(keys[0])] + TableLines(keys[1..])
  }

  /** `tableDef`. */
  function TableDef(keys: seq<string>): string {
    Join(TableLines(keys), "\n") + "\n"
  }

  /** `"/*" + JSON.stringify(e) + "*/"`. */
  function Comment(e: Entity): string {
    "/*" + EntityJson(e) + "*/"
  }

  /** `genFieldDef(t, field, members[field].type)` for each member in order. */
  function FieldTexts(t: string, ms: seq<Field>): (r: Result<seq<string>>)
    ensures r.Ok? ==> |r.value| == |ms|
  {
    if ms == [] then Ok([])
    else
      var first :- Generate(t, ms[0].name, ms[0].ty);
      var rest :- FieldTexts(t, ms[1..]);
      Ok([first] + rest)
  }

  /** What one table key contributes to the `flatMap`. */
  function EntityTexts(t: string, e: Entity): Result<seq<string>> {
    match e.members
    case None => Ok([Comment(e)])
    case Some(ms) => FieldTexts(t, ms)
  }

  /** The `flatMap` over the keys `ks` of the table. */
  function BodyTexts(tb: Table, ks: seq<string>): Result<seq<string>>
    requires forall i :: 0 <= i < |ks| ==> ks[i] in tb.entries
  {
    if ks == [] then Ok([])
    else
      var first :- EntityTexts(ks[0], tb.entries[ks[0]]);
      var rest :- BodyTexts(tb, ks[1..]);
      Ok(first + rest)
  }

  /** `tableDef + fieldDef`, the text written to the schema file. */
  function SchemaText(tb: Table): Result<string>
    requires Valid(tb)
  {
    var body :- BodyTexts(tb, tb.keys);
    Ok(TableDef(tb.keys) + Join(body, "\n"))
  }

  /** The whole compiler: `parseOutput` on the front-end's output, then the script. */
  function Compile(out: seq<seq<Option<Entity>>>): Result<string> {
    var tb :- ParseOutput(out);
    SchemaText(tb)
  }

  // ---------------------------------------------------------------------------
  // When the script is produced

  /** An entity with members, one of whose field descriptors makes `genFieldDef` throw. */
  ghost predicate Broken(e: Entity) {
    e.members.Some? && exists i :: 0 <= i < |e.members.value| && !WellFormed(e.members.value[i].ty)
  }

  /** The fields fail exactly when one of their descriptors makes `genFieldDef` throw. */
  lemma {:induction false} FieldTextsThrowIff(t: string, ms: seq<Field>)
    ensures FieldTexts(t, ms).TypeError? <==> exists i :: 0 <= i < |ms| && !WellFormed(ms[i].ty)
    decreases |ms|
  {
    if ms != [] {
      var rest := ms[1..];
      GenerateIsScript(t, ms[0].name, ms[0].ty);
      FieldTextsThrowIff(t, rest);
      assert FieldTexts(t, ms).TypeError? <==> !WellFormed(ms[0].ty) || FieldTexts(t, rest).TypeError?;
      if exists i :: 1 <= i < |ms| && !WellFormed(ms[i].ty) {
        var i :| 1 <= i < |ms| && !WellFormed(ms[i].ty);
        assert !WellFormed(rest[i - 1].ty);
      }
      if exists i :: 0 <= i < |rest| && !WellFormed(rest[i].ty) {
        var i :| 0 <= i < |rest| && !WellFormed(rest[i].ty);
        assert !WellFormed(ms[i + 1].ty);
      }
    }
  }

  /** When every descriptor is well formed, each field contributes the
      script of its own statements. */
  lemma {:induction false} FieldTextsAreScripts(t: string, ms: seq<Field>)
    requires forall i :: 0 <= i < |ms| ==> WellFormed(ms[i].ty)
    ensures FieldTexts(t, ms).Ok?
    ensures forall i :: 0 <= i < |ms| ==>
      FieldTexts(t, ms).value[i] == Script(t, Statements(ms[i].name, ms[i].ty))
    decreases |ms|
  {
    if ms != [] {
      var rest := ms[1..];
      GenerateIsScript(t, ms[0].name, ms[0].ty);
      assert forall i :: 0 <= i < |rest| ==> rest[i] == ms[i + 1];
      FieldTextsAreScripts(t, rest);
      var first := Script(t, Statements(ms[0].name, ms[0].ty));
      var texts := FieldTexts(t, rest).value;
      assert FieldTexts(t, ms) == Ok([first] + texts);
      forall i | 0 <= i < |ms|
        ensures ([first] + texts)[i] == Script(t, Statements(ms[i].name, ms[i].ty))
      {
        if i > 0 {
          assert ([first] + texts)[i] == texts[i - 1];
          assert rest[i - 1] == ms[i];
        }
      }
    }
  }

  /** The script fails exactly when some entity with members has a field
      whose descriptor makes `genFieldDef` throw; entities without members
      never fail. */
  lemma {:induction false} BodyThrowsIff(tb: Table, ks: seq<string>)
    requires forall i :: 0 <= i < |ks| ==> ks[i] in tb.entries
    ensures BodyTexts(tb, ks).TypeError? <==> exists i :: 0 <= i < |ks| && Broken(tb.entries[ks[i]])
    decreases |ks|
  {
    if ks != [] {
      var rest := ks[1..];
      var e := tb.entries[ks[0]];
      if e.members.Some? {
        FieldTextsThrowIff(ks[0], e.members.value);
      }
      assert EntityTexts(ks[0], e).TypeError? <==> Broken(e);
      BodyThrowsIff(tb, rest);
      assert BodyTexts(tb, ks).TypeError? <==> Broken(e) || BodyTexts(tb, rest).TypeError?;
      if exists i :: 1 <= i < |ks| && Broken(tb.entries[ks[i]]) {
        var i :| 1 <= i < |ks| && Broken(tb.entries[ks[i]]);
        assert rest[i - 1] == ks[i];
      }
      if exists i :: 0 <= i < |rest| && Broken(tb.entries[rest[i]]) {
        var i :| 0 <= i < |rest| && Broken(tb.entries[rest[i]]);
        assert rest[i] == ks[i + 1];
      }
    }
  }

  lemma SchemaThrowsIff(tb: Table)
    requires Valid(tb)
    ensures SchemaText(tb).TypeError? <==> exists k :: k in tb.entries && Broken(tb.entries[k])
  {
    BodyThrowsIff(tb, tb.keys);
    if exists k :: k in tb.entries && Broken(tb.entries[k]) {
      var k :| k in tb.entries && Broken(tb.entries[k]);
      var i :| 0 <= i < |tb.keys| && tb.keys[i] == k;
    }
  }

  // ---------------------------------------------------------------------------
  // What the script looks like

  /** The script's first lines are the table definitions, one per key in key
      order (none for an empty table), followed by the line the field
      definitions start on. */
  lemma TableDefLines(keys: seq<string>, rest: string)
    requires forall i :: 0 <= i < |keys| ==> '\n' !in keys[i]
    ensures Split(TableDef(keys) + rest, '\n')
         == (if keys == [] then [""] else TableLines(keys)) + Split(rest, '\n')
  {
    var lines := if keys == [] then [""] else TableLines(keys);
    forall i | 0 <= i < |lines| ensures '\n' !in lines[i] {
      if keys != [] {
        assert lines[i] == "DEFINE TABLE " + keys[i] + " SCHEMAFULL;";
      }
    }
    SplitJoinRest(lines, '\n', rest);
    assert TableDef(keys) == Join(lines, "\n") + "\n";
  }

  /** Splitting `Join(xs) + sep + rest` gives `xs` back, then the lines of `rest`. */
  lemma {:induction false} SplitJoinRest(xs: seq<string>, sep: char, rest: string)
    requires xs != []
    requires forall i :: 0 <= i < |xs| ==> sep !in xs[i]
    ensures Split(Join(xs, [sep]) + [sep] + rest, sep) == xs + Split(rest, sep)
    decreases |xs|
  {
    if |xs| == 1 {
      SplitNoSep(xs[0], sep, rest);
    } else {
      SplitJoinRest(xs[1..], sep, rest);
      var j := Join(xs[1..], [sep]);
      var tail := j + [sep] + rest;
      assert Join(xs, [sep]) == xs[0] + [sep] + j;
      Assoc(xs[0] + [sep], j, [sep]);
      Assoc(xs[0] + [sep], j + [sep], rest);
      SplitNoSep(xs[0], sep, tail);
      assert [xs[0]] + xs[1..] == xs;
    }
  }

  /** Each field of an entity contributes one entry, even one that compiles
      to nothing; an entity without members contributes its one-line comment;
      one with an empty members object contributes nothing. */
  lemma EntityContribution(t: string, e: Entity)
    ensures e.members.None? ==> EntityTexts(t, e) == Ok([Comment(e)]) && '\n' !in Comment(e)
    ensures e.members == Some([]) ==> EntityTexts(t, e) == Ok([])
    ensures e.members.Some? && EntityTexts(t, e).Ok? ==> |EntityTexts(t, e).value| == |e.members.value|
  {
  }

  /** `extends` is only logged: for an entity with members it has no effect
      on the script. */
  lemma ExtendsIgnored(tb: Table, k: string, bases: Option<seq<seq<Desc>>>)
    requires Valid(tb) && k in tb.entries && tb.entries[k].members.Some?
    ensures Valid(Table(tb.keys, tb.entries[k := tb.entries[k].(bases := bases)]))
    ensures SchemaText(Table(tb.keys, tb.entries[k := tb.entries[k].(bases := bases)])) == SchemaText(tb)
  {
    var tb' := Table(tb.keys, tb.entries[k := tb.entries[k].(bases := bases)]);
    BodyUnchanged(tb, tb', tb.keys);
  }

  lemma {:induction false} BodyUnchanged(tb: Table, tb': Table, ks: seq<string>)
    requires forall i :: 0 <= i < |ks| ==> ks[i] in tb.entries && ks[i] in tb'.entries
    requires forall i :: 0 <= i < |ks| ==> EntityTexts(ks[i], tb.entries[ks[i]]) == EntityTexts(ks[i], tb'.entries[ks[i]])
    ensures BodyTexts(tb, ks) == BodyTexts(tb', ks)
    decreases |ks|
  {
    if ks != [] {
      BodyUnchanged(tb, tb', ks[1..]);
    }
  }

  // ---------------------------------------------------------------------------
  // The whole compiler

  /** `n` holds the last entity named after it: the one `parseOutput` keeps. */
  predicate Kept(xs: seq<Option<Entity>>, n: int) {
    0 <= n < |xs| && xs[n].Some? && forall m :: n < m < |xs| ==> !NamedAt(xs, m, xs[n].value.name)
  }

  lemma {:induction false} LastOccurrence(xs: seq<Option<Entity>>, k: string)
    requires k in Names(xs)
    ensures exists n :: Kept(xs, n) && xs[n].value.name == k
    decreases |xs|
  {
    var pre := xs[..|xs| - 1];
    if NamedAt(xs, |xs| - 1, k) {
      assert Kept(xs, |xs| - 1);
    } else {
      assert k in Names(pre) by {
        var n :| 0 <= n < |xs| && xs[n].Some? && xs[n].value.name == k;
        assert pre[n] == xs[n];
      }
      LastOccurrence(pre, k);
      var n :| Kept(pre, n) && pre[n].value.name == k;
      assert xs[n] == pre[n];
      forall m | n < m < |xs| ensures !NamedAt(xs, m, k) {
        if m < |pre| { assert !NamedAt(pre, m, k); }
      }
      assert Kept(xs, n);
    }
  }

  /** Compiling fails exactly when the output is empty or one of the entities
      `parseOutput` keeps is broken; a broken entity replaced by a later one of
      the same name does no harm. */
  lemma CompileThrowsIff(out: seq<seq<Option<Entity>>>)
    ensures Compile(out).TypeError? <==>
      out == [] || exists n :: Kept(out[0], n) && Broken(out[0][n].value)
  {
    if out != [] {
      var xs := out[0];
      var tb := Collect(xs);
      SchemaThrowsIff(tb);
      if Compile(out).TypeError? {
        var k :| k in tb.entries && Broken(tb.entries[k]);
        LastOccurrence(xs, k);
        var n :| Kept(xs, n) && xs[n].value.name == k;
        LastWins(xs, k, n);
      }
      if n :| Kept(xs, n) && Broken(xs[n].value) {
        var k := xs[n].value.name;
        LastWins(xs, k, n);
      }
    }
  }
}

=== FILE: strings.dfy ===
/**
 The JavaScript string built-ins the compiler leans on: decimal rendering of
 integers (`String(n)`, `JSON.stringify(n)`, template interpolation of an
 index), `Array.prototype.join("\n")`, and the inverse operations used to state
 round trips about them.
 */
module Strings {

  predicate IsDigit(c: char) {
    '0' <= c <= '9'
  }

  function DigitChar(d: nat): (c: char)
    requires d < 10
    ensures IsDigit(c)
    ensures DigitValue(c) == d
  {
    "0123456789"[d]
  }

  function DigitValue(c: char): nat
    requires IsDigit(c)
  {
    c as int - '0' as int
  }

  /** Decimal text of a natural number, most significant digit first. */
  function NatToString(n: nat): (s: string)
    ensures |s| >= 1
    ensures forall i :: 0 <= i < |s| ==> IsDigit(s[i])
    decreases n
  {
    if n < 10 then [DigitChar(n)] else NatToString(n / 10) + [DigitChar(n % 10)]
  }

  /** Decimal text of an integer as JavaScript prints a safe integer: a leading
      minus for negative values, no leading zeros, no plus sign. */
  function IntToString(n: int): (s: string)
  {
    if n < 0 then "-" + NatToString(-n) else NatToString(n)
  }

  /** Value of a non-empty digit string, the inverse of `NatToString`. */
  function ParseNat(s: string): nat
    requires forall i :: 0 <= i < |s| ==> IsDigit(s[i])
    decreases |s|
  {
    if s == [] then 0 else ParseNat(s[..|s| - 1]) * 10 + DigitValue(s[|s| - 1])
  }

  /** Reads back an optionally signed decimal numeral. */
  function ParseInt(s: string): (r: int)
    requires |s| >= 1
    requires s[0] == '-' ==> forall i :: 1 <= i < |s| ==> IsDigit(s[i])
    requires s[0] != '-' ==> forall i :: 0 <= i < |s| ==> IsDigit(s[i])
  {
    if s[0] == '-' then -(ParseNat(s[1..]) as int) else ParseNat(s)
  }

  lemma {:induction false} ParseNatToString(n: nat)
    ensures ParseNat(NatToString(n)) == n
    decreases n
  {
    var s := NatToString(n);
    if n >= 10 {
      ParseNatToString(n / 10);
      assert s[..|s| - 1] == NatToString(n / 10);
    }
  }

  /** Printing an integer and reading it back gives the integer. */
  lemma IntRoundTrip(n: int)
    ensures |IntToString(n)| >= 1
    ensures IntToString(n)[0] == '-' <==> n < 0
    ensures forall i :: 1 <= i < |IntToString(n)| ==> IsDigit(IntToString(n)[i])
    ensures IntToString(n)[0] != '-' ==> IsDigit(IntToString(n)[0])
    ensures ParseInt(IntToString(n)) == n
  {
    if n < 0 {
      NegativeRoundTrip(-n);
    } else {
      ParseNatToString(n);
    }
  }

  lemma NegativeRoundTrip(m: nat)
    ensures var s := "-" + NatToString(m);
      s[0] == '-' && (forall i :: 1 <= i < |s| ==> IsDigit(s[i])) && ParseInt(s) == -(m as int)
  {
    var s := "-" + NatToString(m);
    assert s[1..] == NatToString(m);
    ParseNatToString(m);
  }

  /** The last character of a printed integer is a digit. */
  lemma IntToStringEndsInDigit(n: int)
    ensures |IntToString(n)| >= 1
    ensures IsDigit(IntToString(n)[|IntToString(n)| - 1])
  {
  }

  /** `xs.join(sep)`: the elements with one separator between neighbours. */
  function Join(xs: seq<string>, sep: string): string
    decreases |xs|
  {
    if xs == [] then ""
    else if |xs| == 1 then xs[0]
    else xs[0] + sep + Join(xs[1..], sep)
  }

  /** Concatenation regrouped, for the places the solver does not regroup by itself. */
  lemma Assoc<T>(a: seq<T>, b: seq<T>, c: seq<T>)
    ensures a + b + c == a + (b + c)
  {
  }

  /** Joining two non-empty lists is joining their joins. */
  lemma {:induction false} JoinAppend(a: seq<string>, b: seq<string>, sep: string)
    requires a != [] && b != []
    ensures Join(a + b, sep) == Join(a, sep) + sep + Join(b, sep)
    decreases |a|
  {
    if |a| == 1 {
      assert (a + b)[1..] == b;
    } else {
      assert (a + b)[1..] == a[1..] + b;
      JoinAppend(a[1..], b, sep);
    }
  }

  /** Joining one more item appends the separator and the item. */
  lemma JoinSnoc(xs: seq<string>, x: string, sep: string)
    requires xs != []
    ensures Join(xs + [x], sep) == Join(xs, sep) + sep + x
  {
    JoinAppend(xs, [x], sep);
  }

  /** Splitting on a separator character: the inverse of `Join` with that character. */
  function Split(s: string, sep: char): (parts: seq<string>)
    ensures |parts| >= 1
    decreases |s|
  {
    if s == [] then [""]
    else
      var rest := Split(s[1..], sep);
      if s[0] == sep then [""] + rest else [[s[0]] + rest[0]] + rest[1..]
  }

  lemma {:induction false} SplitNoSep(x: string, sep: char, tail: string)
    requires sep !in x
    ensures Split(x + [sep] + tail, sep) == [x] + Split(tail, sep)
    ensures Split(x, sep) == [x]
    decreases |x|
  {
    if x == [] {
      assert ([] + [sep] + tail)[1..] == tail;
    } else {
      assert (x + [sep] + tail)[1..] == x[1..] + [sep] + tail;
      SplitNoSep(x[1..], sep, tail);
      assert [x[0]] + x[1..] == x;
    }
  }

  /** Joining lines that hold no separator and splitting again gives the lines back. */
  lemma {:induction false} SplitJoin(xs: seq<string>, sep: char)
    requires xs != []
    requires forall i :: 0 <= i < |xs| ==> sep !in xs[i]
    ensures Split(Join(xs, [sep]), sep) == xs
    decreases |xs|
  {
    if |xs| == 1 {
      SplitNoSep(xs[0], sep, "");
    } else {
      SplitJoin(xs[1..], sep);
      SplitNoSep(xs[0], sep, Join(xs[1..], [sep]));
      assert [xs[0]] + xs[1..] == xs;
    }
  }

  predicate IsPrefix(p: string, s: string) {
    |p| <= |s| && s[..|p|] == p
  }
}

=== FILE: vectors.dfy ===
/**
 Fields and entities taken from the front-end output the repository keeps as
 a fixture (`factory.mjs`), with the text the compiler gives for each.
 */
module Vectors {
  import opened Js
  import opened Strings
  import opened Descriptor
  import opened Expr
  import opened FieldDef
  import opened FieldDefProperties
  import opened Entities
  import opened Schema
  import Json

  function Scalar(k: string): Desc {
    Node(k, [])
  }

  lemma DefaultLine(t: string, f: string, k: string, args: seq<Desc>, p: Desc, text: string)
    requires k in InternalTypes || k == "keyword"
    requires p != JNull && Render(Defined(p)) == Ok(Str(text))
    ensures Generate(t, f, Node("WITH_DEFAULT", [Node(k, args), p]))
         == Ok(Line(t, f, if k in InternalTypes then InternalTypes[k] else "any", Clause("$value OR " + text)))
  {
    SingleModifier(t, f, WithDefault, Node(k, args), p);
    DispatchScalar(t, f, Str("$value OR " + text), k, args);
  }

  /** `is_member: WITH_DEFAULT<BOOL, true>` */
  lemma DefaultBool(t: string, f: string)
    ensures Generate(t, f, Node("WITH_DEFAULT", [Scalar("BOOL"), JBool(true)]))
         == Ok(Line(t, f, "bool", Clause("$value OR " + "true")))
  {
    DefaultLine(t, f, "BOOL", [], JBool(true), "true");
  }

  /** `test_num2: WITH_DEFAULT<INT, 42>` */
  lemma DefaultNumber(t: string, f: string)
    ensures Generate(t, f, Node("WITH_DEFAULT", [Scalar("INT"), JInt(42)]))
         == Ok(Line(t, f, "int", Clause("$value OR " + "42")))
  {
    assert IntToString(42) == "42";
    DefaultLine(t, f, "INT", [], JInt(42), "42");
  }

  /** `test_big: WITH_DEFAULT<INT, "42n">`: the big-integer literal loses its
      `n` and reads like the number 42. */
  lemma DefaultBigInt(t: string, f: string)
    ensures Generate(t, f, Node("WITH_DEFAULT", [Scalar("INT"), JStr("42n")]))
         == Ok(Line(t, f, "int", Clause("$value OR " + "42")))
  {
    assert IntToString(42) == "42";
    BigIntRendersAsNumber(42);
    assert IntToString(42) + "n" == "42n";
    DefaultLine(t, f, "INT", [], JStr("42n"), "42");
  }

  /** `test_string: WITH_DEFAULT<STRING, "abbb">`: quoted as JSON. */
  lemma DefaultString(t: string, f: string)
    ensures Generate(t, f, Node("WITH_DEFAULT", [Scalar("STRING"), JStr("abbb")]))
         == Ok(Line(t, f, "string", Clause("$value OR " + "\"abbb\"")))
  {
    AbbbRendered();
    DefaultLine(t, f, "STRING", [], JStr("abbb"), "\"abbb\"");
  }

  lemma AbbbRendered()
    ensures Render(Defined(JStr("abbb"))) == Ok(Str("\"abbb\""))
  {
    NoBigIntSuffix();
    AbbbQuoted();
  }

  lemma NoBigIntSuffix()
    ensures !HasBigIntSuffix("abbb")
  {
    HasBigIntSuffixAt("abbb");
    assert !IsDigit('a') && !IsDigit('b');
  }

  lemma AbbbQuoted()
    ensures Json.Quote("abbb") == "\"abbb\""
  {
    assert Json.Escape("") == "";
    assert Json.Escape("b") == "b";
    assert Json.Escape("bb") == "bb";
    assert Json.Escape("bbb") == "bbb";
    assert Json.Escape("abbb") == "abbb";
  }

  /** `test_string2: WITH_DEFAULT<STRING, SQL_EXPR<"\"abbb\"">>`: the same
      text, taken verbatim. */
  lemma DefaultSqlExpr(t: string, f: string)
    ensures Generate(t, f, Node("WITH_DEFAULT", [Scalar("STRING"), Node("SQL_EXPR", [JStr("\"abbb\"")])]))
         == Ok(Line(t, f, "string", Clause("$value OR " + "\"abbb\"")))
  {
    SqlExprVerbatim("\"abbb\"", []);
    assert [JStr("\"abbb\"")] + [] == [JStr("\"abbb\"")];
    DefaultLine(t, f, "STRING", [], Node("SQL_EXPR", [JStr("\"abbb\"")]), "\"abbb\"");
  }

  /** `unstructered: WITH_DEFAULT<keyword<"Any">, {}>`: an object payload
      renders as `??`. */
  lemma DefaultObject(t: string, f: string)
    ensures Generate(t, f, Node("WITH_DEFAULT", [Node("keyword", [JStr("Any")]), TypeLit([])]))
         == Ok(Line(t, f, "any", Clause("$value OR " + "??")))
  {
    DefaultLine(t, f, "keyword", [JStr("Any")], TypeLit([]), "??");
  }

  lemma FutureLine(t: string, f: string, k: string, p: Desc, text: string)
    requires k in InternalTypes
    requires p != JNull && Render(Defined(p)) == Ok(Str(text))
    ensures Generate(t, f, Node("FUTURE", [Node(k, []), p]))
         == Ok(Line(t, f, InternalTypes[k], Clause("<future> " + text)))
  {
    SingleModifier(t, f, Future, Node(k, []), p);
    DispatchScalar(t, f, Str("<future> " + text), k, []);
  }

  /** `age2: FUTURE<INT, SQL_EXPR<"time::now() - birthdate">>`: the
      expression after `<future> `. */
  lemma FutureField(t: string, f: string)
    ensures Generate(t, f, Node("FUTURE", [Scalar("INT"), Node("SQL_EXPR", [JStr("time::now() - birthdate")])]))
         == Ok(Line(t, f, "int", Clause("<future> " + "time::now() - birthdate")))
  {
    FutureSql(t, f, "time::now() - birthdate");
  }

  lemma FutureSql(t: string, f: string, e: string)
    ensures Generate(t, f, Node("FUTURE", [Scalar("INT"), Node("SQL_EXPR", [JStr(e)])]))
         == Ok(Line(t, f, "int", Clause("<future> " + e)))
  {
    SqlExprVerbatim(e, []);
    assert [JStr(e)] + [] == [JStr(e)];
    FutureLine(t, f, "INT", Node("SQL_EXPR", [JStr(e)]), e);
  }

  /** `FUTURE<INT, SQL_EXPR<''>>`: the `<future> ` prefix makes the pending
      value truthy, so unlike `WITH_VALUE` an empty payload keeps its VALUE
      clause. */
  lemma FutureEmptySql(t: string, f: string)
    ensures Generate(t, f, Node("FUTURE", [Scalar("INT"), Node("SQL_EXPR", [JStr("")])]))
         == Ok(Line(t, f, "int", Clause("<future> ")))
  {
    FutureSql(t, f, "");
    assert "<future> " + "" == "<future> ";
  }

  /** `age: WITH_VALUE<INT, FUTURE<INT, SQL_EXPR<...>>>`: a `FUTURE` payload
      renders as the fixed text. */
  lemma ValueOfFuture(t: string, f: string)
    ensures Generate(t, f, Node("WITH_VALUE", [Scalar("INT"),
              Node("FUTURE", [Scalar("INT"), Node("SQL_EXPR", [JStr("time::now() - birthdate")])])]))
         == Ok(Line(t, f, "int", Clause(FutureText)))
  {
    var p := Node("FUTURE", [Scalar("INT"), Node("SQL_EXPR", [JStr("time::now() - birthdate")])]);
    FutureIgnoresPayload(p.args, []);
    SingleModifier(t, f, WithValue, Scalar("INT"), p);
    DispatchScalar(t, f, Str(FutureText), "INT", []);
  }

  /** `WITH_VALUE<INT>` with no payload: `valueStr` becomes `undefined`, and
      the line reads `TYPE intundefined;`. */
  lemma MissingValuePayload(t: string, f: string)
    ensures Generate(t, f, Node("WITH_VALUE", [Scalar("INT")])) == Ok(Line(t, f, "int", "undefined"))
    ensures Line(t, f, "int", "undefined") == "DEFINE FIELD " + f + " ON TABLE " + t + " TYPE " + "intundefined" + ";"
  {
    assert [Scalar("INT")] + [] == [Scalar("INT")];
    FalsyValuePrintedRaw(t, f, "INT", [], []);
  }

  /** `WITH_VALUE<INT, SQL_EXPR<0>>`: the falsy `0` is printed straight after
      the type name, `TYPE int0;`. */
  lemma ZeroValuePayload(t: string, f: string)
    ensures Generate(t, f, Node("WITH_VALUE", [Scalar("INT"), Node("SQL_EXPR", [JInt(0)])]))
         == Ok(Line(t, f, "int", "0"))
  {
    assert IntToString(0) == "0";
    assert [Scalar("INT")] + [Node("SQL_EXPR", [JInt(0)])] == [Scalar("INT"), Node("SQL_EXPR", [JInt(0)])];
    FalsyValuePrintedRaw(t, f, "INT", [], [Node("SQL_EXPR", [JInt(0)])]);
  }

  /** `email2: ASSERT<STRING, SQL_EXPR<...>>`: nothing. */
  lemma AssertField(t: string, f: string)
    ensures Generate(t, f, Node("ASSERT", [Scalar("STRING"), Node("SQL_EXPR", [JStr("$value != NONE AND is::email($value)")])]))
         == Ok("")
  {
    AssertEmitsNothing(t, f, [Scalar("STRING"), Node("SQL_EXPR", [JStr("$value != NONE AND is::email($value)")])]);
  }

  /** `bff: RECORD<Person>` */
  lemma RecordField(t: string, f: string)
    ensures Generate(t, f, Node("RECORD", [Scalar("Person")]))
         == Ok(Line(t, f, "record(Person)", ""))
  {
    RecordTarget(t, f, [Scalar("Person")]);
    assert "record(" + "Person" + ")" == "record(Person)";
  }

  /** `adress: union<{ street, plz, ort: STRING }, null>`: a union is `any`,
      its alternatives are not visited. */
  lemma UnionField(t: string, f: string)
    ensures Generate(t, f, Node("union", [Address, JNull])) == Ok(Line(t, f, "any", ""))
  {
    LeafLine(t, f, "union", [Address, JNull], "any");
  }

  /** The object type of `adress` and of the elements of `prev_adress`. */
  const Address := StringObject("street", "plz", "ort")

  // ---------------------------------------------------------------------------
  // Containers

  lemma ScalarStatements(f: string, k: string)
    requires k in InternalTypes
    ensures WellFormed(Node(k, []))
    ensures Statements(f, Node(k, [])) == [DefineField(f, InternalTypes[k], "")]
  {
    StatementsUnwrapped(f, Node(k, []));
    assert Suffix(Str("")) == "";
  }

  lemma Script1(t: string, a: Stmt)
    ensures FieldDef.Script(t, [a]) == StmtText(t, a)
  {
    assert Texts(t, [a]) == [StmtText(t, a)];
  }

  lemma Script3(t: string, a: Stmt, b: Stmt, c: Stmt)
    ensures FieldDef.Script(t, [a, b, c]) == StmtText(t, a) + "\n" + StmtText(t, b) + "\n" + StmtText(t, c)
  {
    Script1(t, a);
    ScriptSnoc(t, [a], b);
    assert [a] + [b] == [a, b];
    ScriptSnoc(t, [a, b], c);
    assert [a, b] + [c] == [a, b, c];
  }

  lemma Script5(t: string, a: Stmt, b: Stmt, c: Stmt, d: Stmt, e: Stmt)
    ensures FieldDef.Script(t, [a, b, c, d, e])
         == StmtText(t, a) + "\n" + StmtText(t, b) + "\n" + StmtText(t, c) + "\n" + StmtText(t, d) + "\n" + StmtText(t, e)
  {
    Script4(t, a, b, c, d);
    ScriptSnoc(t, [a, b, c, d], e);
    assert [a, b, c, d] + [e] == [a, b, c, d, e];
  }

  lemma Script4(t: string, a: Stmt, b: Stmt, c: Stmt, d: Stmt)
    ensures FieldDef.Script(t, [a, b, c, d])
         == StmtText(t, a) + "\n" + StmtText(t, b) + "\n" + StmtText(t, c) + "\n" + StmtText(t, d)
  {
    Script3(t, a, b, c);
    ScriptSnoc(t, [a, b, c], d);
    assert [a, b, c] + [d] == [a, b, c, d];
  }

  /** `tuple: [STRING, STRING]`: the array line, then one line per element. */
  lemma TupleField(t: string, f: string)
    ensures Generate(t, f, Node("tuple", [Scalar("STRING"), Scalar("STRING")]))
         == Ok(Line(t, f, "array", "") + "\n"
             + Line(t, f + "[0]", "string", "") + "\n"
             + Line(t, f + "[1]", "string", ""))
  {
    var d := Node("tuple", [Scalar("STRING"), Scalar("STRING")]);
    var a, b, c := DefineField(f, "array", ""), DefineField(f + "[0]", "string", ""), DefineField(f + "[1]", "string", "");
    StringPairStatements(f);
    GenerateIsScript(t, f, d);
    Script3(t, a, b, c);
  }

  lemma StringPairStatements(f: string)
    ensures WellFormed(Node("tuple", [Scalar("STRING"), Scalar("STRING")]))
    ensures Statements(f, Node("tuple", [Scalar("STRING"), Scalar("STRING")]))
         == [DefineField(f, "array", ""), DefineField(f + "[0]", "string", ""), DefineField(f + "[1]", "string", "")]
  {
    var a, b, c := DefineField(f, "array", ""), DefineField(f + "[0]", "string", ""), DefineField(f + "[1]", "string", "");
    ScalarStatements(f + "[0]", "STRING");
    ScalarStatements(f + "[1]", "STRING");
    TuplePair(f, Scalar("STRING"), Scalar("STRING"));
    assert [a] + [b] + [c] == [a, b, c];
  }

  /** `prev_adress: array<{ street: STRING, plz: STRING, ort: STRING }>`: the
      array line, the element's object line at `.*`, then its members below it
      in declaration order. */
  lemma ArrayOfObjects(t: string, f: string)
    ensures Generate(t, f, Node("array", [Address]))
         == Ok(Line(t, f, "array", "") + "\n"
             + Line(t, f + ".*", "object", "") + "\n"
             + Line(t, f + ".*" + "." + "street", "string", "") + "\n"
             + Line(t, f + ".*" + "." + "plz", "string", "") + "\n"
             + Line(t, f + ".*" + "." + "ort", "string", ""))
  {
    var g := f + ".*";
    StringObjectListStatements(f, "street", "plz", "ort");
    GenerateIsScript(t, f, Node("array", [Address]));
    Script5(t, DefineField(f, "array", ""), DefineField(g, "object", ""),
            DefineField(g + "." + "street", "string", ""), DefineField(g + "." + "plz", "string", ""),
            DefineField(g + "." + "ort", "string", ""));
  }

  /** A type literal of three `STRING` members named `a`, `b` and `c`. */
  function StringObject(a: string, b: string, c: string): Desc {
    TypeLit([Field(a, false, Scalar("STRING")), Field(b, false, Scalar("STRING")), Field(c, false, Scalar("STRING"))])
  }

  lemma StringObjectListStatements(f: string, a: string, b: string, c: string)
    ensures var d := Node("array", [StringObject(a, b, c)]);
      WellFormed(d)
      && Statements(f, d)
         == [DefineField(f, "array", ""), DefineField(f + ".*", "object", ""),
             DefineField(f + ".*" + "." + a, "string", ""), DefineField(f + ".*" + "." + b, "string", ""),
             DefineField(f + ".*" + "." + c, "string", "")]
  {
    var g := f + ".*";
    var x := StringObject(a, b, c);
    var own := DefineField(f, "array", "");
    var rest := [DefineField(g, "object", ""), DefineField(g + "." + a, "string", ""),
                 DefineField(g + "." + b, "string", ""), DefineField(g + "." + c, "string", "")];
    StringObjectStatements(g, a, b, c);
    ArrayStatements(f, Str(""), "array", [x]);
    StatementsUnwrapped(f, Node("array", [x]));
    NoValue();
    assert [own] + rest == [own, rest[0], rest[1], rest[2], rest[3]];
  }

  lemma StringObjectStatements(g: string, a: string, b: string, c: string)
    ensures WellFormed(StringObject(a, b, c))
    ensures Statements(g, StringObject(a, b, c))
         == [DefineField(g, "object", ""), DefineField(g + "." + a, "string", ""),
             DefineField(g + "." + b, "string", ""), DefineField(g + "." + c, "string", "")]
  {
    var ms := StringObject(a, b, c).members;
    var own := DefineField(g, "object", "");
    var sa, sb, sc := DefineField(g + "." + a, "string", ""), DefineField(g + "." + b, "string", ""), DefineField(g + "." + c, "string", "");
    StringMembers(g, a, b, c);
    ObjectStatements(g, Str(""), ms);
    StatementsUnwrapped(g, TypeLit(ms));
    NoValue();
    assert [own] + [sa, sb, sc] == [own, sa, sb, sc];
  }

  lemma StringMembers(g: string, a: string, b: string, c: string)
    ensures var ms := StringObject(a, b, c).members;
      (forall i | 0 <= i < |ms| :: WellFormed(ms[i].ty))
      && MemberStatements(g, ms)
         == [DefineField(g + "." + a, "string", ""), DefineField(g + "." + b, "string", ""), DefineField(g + "." + c, "string", "")]
  {
    var ms := StringObject(a, b, c).members;
    ScalarStatements(g + "." + a, "STRING");
    ScalarStatements(g + "." + b, "STRING");
    ScalarStatements(g + "." + c, "STRING");
    MemberCons(g, ms[0], ms[1..]);
    assert [ms[0]] + ms[1..] == ms;
    MemberPair(g, ms[1], ms[2]);
    assert ms[1..] == [ms[1], ms[2]];
  }

  // ---------------------------------------------------------------------------
  // A whole script

  const Relation := Node("RELATION", [Scalar("Person"), Scalar("Person")])
  const Person := Entity("Person", None, Some([
    Field("email", false, Scalar("STRING")),
    Field("email2", false, Node("ASSERT", [Scalar("STRING")]))]), None)
  const Friends := Entity("Friends", Some([[Relation]]), Some([]), None)
  const Couple := Entity("Couple", None, None, Some(Relation))

  lemma CollectSample()
    ensures Collect([Some(Person), None, Some(Friends), Some(Couple)])
         == Table(["Person", "Friends", "Couple"],
                  map["Person" := Person, "Friends" := Friends, "Couple" := Couple])
  {
    assert "Friends" != "Person";
    assert "Couple"[0] != "Person"[0] && "Couple"[0] != "Friends"[0];
    CollectThree(Person, Friends, Couple);
  }

  /** Three differently named entities with a falsy entry after the first. */
  lemma CollectThree(a: Entity, b: Entity, c: Entity)
    requires a.name != b.name && a.name != c.name && b.name != c.name
    ensures Collect([Some(a), None, Some(b), Some(c)])
         == Table([a.name, b.name, c.name], map[a.name := a, b.name := b, c.name := c])
  {
    CollectTwo(a, b);
    CollectSnoc([Some(a), None, Some(b)], Some(c));
    assert [Some(a), None, Some(b)] + [Some(c)] == [Some(a), None, Some(b), Some(c)];
    InsertFresh(Table([a.name, b.name], map[a.name := a, b.name := b]), c);
    assert [a.name, b.name] + [c.name] == [a.name, b.name, c.name];
  }

  lemma CollectTwo(a: Entity, b: Entity)
    requires a.name != b.name
    ensures Collect([Some(a), None, Some(b)]) == Table([a.name, b.name], map[a.name := a, b.name := b])
  {
    CollectOne(a);
    CollectSnoc([Some(a), None], Some(b));
    assert [Some(a), None] + [Some(b)] == [Some(a), None, Some(b)];
    InsertFresh(Table([a.name], map[a.name := a]), b);
    assert [a.name] + [b.name] == [a.name, b.name];
  }

  lemma CollectOne(a: Entity)
    ensures Collect([Some(a), None]) == Table([a.name], map[a.name := a])
  {
    var t0: Table := Table([], map[]);
    CollectSnoc([], Some(a));
    assert [] + [Some(a)] == [Some(a)];
    InsertFresh(t0, a);
    CollectSnoc([Some(a)], None);
    assert [Some(a)] + [None] == [Some(a), None];
  }

  /** One more entry at the end of the output. */
  lemma CollectSnoc(xs: seq<Option<Entity>>, x: Option<Entity>)
    ensures Collect(xs + [x]) == match x case None => Collect(xs) case Some(e) => Insert(Collect(xs), e)
  {
    assert (xs + [x])[..|xs|] == xs;
  }

  lemma InsertFresh(tb: Table, e: Entity)
    requires e.name !in tb.entries
    ensures Insert(tb, e) == Table(tb.keys + [e.name], tb.entries[e.name := e])
  {
  }

  lemma TwoFields(t: string, a: Field, b: Field, ra: string, rb: string)
    requires Generate(t, a.name, a.ty) == Ok(ra) && Generate(t, b.name, b.ty) == Ok(rb)
    ensures FieldTexts(t, [a, b]) == Ok([ra, rb])
  {
    assert [a, b][1..] == [b];
    assert [b][1..] == [];
    assert FieldTexts(t, [b]) == Ok([rb] + []);
    assert [rb] + [] == [rb] && [ra] + [rb] == [ra, rb];
  }

  lemma PersonSample()
    ensures EntityTexts("Person", Person) == Ok([Line("Person", "email", "string", ""), ""])
  {
    ScalarTypes("Person", "email", []);
    AssertEmitsNothing("Person", "email2", [Scalar("STRING")]);
    TwoFields("Person", Person.members.value[0], Person.members.value[1], Line("Person", "email", "string", ""), "");
  }

  lemma BodyThree(tb: Table, k1: string, k2: string, k3: string, r1: seq<string>, r2: seq<string>, r3: seq<string>)
    requires k1 in tb.entries && k2 in tb.entries && k3 in tb.entries
    requires EntityTexts(k1, tb.entries[k1]) == Ok(r1)
    requires EntityTexts(k2, tb.entries[k2]) == Ok(r2)
    requires EntityTexts(k3, tb.entries[k3]) == Ok(r3)
    ensures BodyTexts(tb, [k1, k2, k3]) == Ok(r1 + r2 + r3)
  {
    BodyNil(tb);
    BodyCons(tb, k3, [], r3, []);
    assert [k3] + [] == [k3] && r3 + [] == r3;
    BodyCons(tb, k2, [k3], r2, r3);
    assert [k2] + [k3] == [k2, k3];
    BodyCons(tb, k1, [k2, k3], r1, r2 + r3);
    assert [k1] + [k2, k3] == [k1, k2, k3];
    Assoc(r1, r2, r3);
  }

  lemma BodyNil(tb: Table)
    ensures BodyTexts(tb, []) == Ok([])
  {
  }

  lemma BodyCons(tb: Table, k: string, ks: seq<string>, r: seq<string>, rs: seq<string>)
    requires k in tb.entries && forall i :: 0 <= i < |ks| ==> ks[i] in tb.entries
    requires EntityTexts(k, tb.entries[k]) == Ok(r) && BodyTexts(tb, ks) == Ok(rs)
    ensures BodyTexts(tb, [k] + ks) == Ok(r + rs)
  {
    assert ([k] + ks)[0] == k && ([k] + ks)[1..] == ks;
  }

  lemma SampleLookups(tb: Table)
    requires tb == Table(["Person", "Friends", "Couple"],
                         map["Person" := Person, "Friends" := Friends, "Couple" := Couple])
    ensures "Person" in tb.entries && tb.entries["Person"] == Person
    ensures "Friends" in tb.entries && tb.entries["Friends"] == Friends
    ensures "Couple" in tb.entries && tb.entries["Couple"] == Couple
  {
    assert "Couple"[0] != "Person"[0];
    assert "Friends" != "Person";
  }

  lemma FriendsSample()
    ensures EntityTexts("Friends", Friends) == Ok([])
  {
  }

  lemma CoupleSample()
    ensures EntityTexts("Couple", Couple) == Ok([Comment(Couple)])
  {
  }

  /** The body for the three sample keys, whatever entities they hold. */
  lemma BodySample(tb: Table, l: string, k: string, e1: Entity, e2: Entity, e3: Entity)
    requires "Person" in tb.entries && tb.entries["Person"] == e1
    requires "Friends" in tb.entries && tb.entries["Friends"] == e2
    requires "Couple" in tb.entries && tb.entries["Couple"] == e3
    requires EntityTexts("Person", e1) == Ok([l, ""])
    requires EntityTexts("Friends", e2) == Ok([])
    requires EntityTexts("Couple", e3) == Ok([k])
    ensures BodyTexts(tb, ["Person", "Friends", "Couple"]) == Ok([l, "", k])
  {
    BodyThree(tb, "Person", "Friends", "Couple", [l, ""], [], [k]);
    assert [l, ""] + [] + [k] == [l, "", k];
  }

  /** Three table lines followed by a three-line body, as one text. */
  lemma SampleText(a: string, b: string, c: string, l: string, m: string, k: string)
    ensures TableDef([a, b, c]) + Join([l, m, k], "\n")
         == TableLine(a) + "\n" + TableLine(b) + "\n" + TableLine(c) + "\n" + l + "\n" + m + "\n" + k
  {
    var x, y, z := TableLine(a), TableLine(b), TableLine(c);
    assert TableLines([a, b, c]) == [x, y, z];
    assert Join([x], "\n") == x;
    JoinSnoc([x], y, "\n");
    assert [x] + [y] == [x, y];
    JoinSnoc([x, y], z, "\n");
    assert [x, y] + [z] == [x, y, z];
    JoinSnoc([x, y, z], l, "\n");
    assert [x, y, z] + [l] == [x, y, z, l];
    JoinSnoc([x, y, z, l], m, "\n");
    assert [x, y, z, l] + [m] == [x, y, z, l, m];
    JoinSnoc([x, y, z, l, m], k, "\n");
    assert [x, y, z, l, m] + [k] == [x, y, z, l, m, k];
    JoinAppend([x, y, z], [l, m, k], "\n");
    assert [x, y, z] + [l, m, k] == [x, y, z, l, m, k];
  }

  /** A person with two fields, a `null` entry, an entity with an empty
      members object and an alias: one table line per entity in order, then
      the person's fields (the `ASSERT` one as an empty line), then the
      alias's comment; the empty members object contributes no line. */
  lemma SmallScript()
    ensures Compile([[Some(Person), None, Some(Friends), Some(Couple)]])
         == Ok(TableLine("Person") + "\n" + TableLine("Friends") + "\n" + TableLine("Couple") + "\n"
             + Line("Person", "email", "string", "") + "\n" + "" + "\n" + Comment(Couple))
  {
    var tb := Collect([Some(Person), None, Some(Friends), Some(Couple)]);
    CollectSample();
    SampleLookups(tb);
    PersonSample();
    FriendsSample();
    CoupleSample();
    BodySample(tb, Line("Person", "email", "string", ""), Comment(Couple), Person, Friends, Couple);
    SampleText("Person", "Friends", "Couple", Line("Person", "email", "string", ""), "", Comment(Couple));
  }
}
